=== FILE: README.md ===
# Jam Session core logic in Dafny

This project models the pure logic of the Jam Session MVP, which lives inside its UI mockups and its build script.

- **Phone views.** The drum and percussion step grids (`toggleStep`) and the bass piano roll (`getNoteAtCell`, `isNoteStart`, `toggleNote`). Also the chord slots (`cycleChord`), the draft / "send to mix" staging with its `hasChanges` flag, Clear, and the looping playheads with their beat indicator.
- **Host screen.** The read-only lookups that decide which cells of an instrument row are lit (`isStepInNote`, `getNoteAtStep`, `isNoteStart`). Also the start / middle / end shape of a sustained note, the row flags `isActive` and `isSustained`, and the playhead that Play/Pause gates.
- **Build script.** Where the keys come from: the process environment, or `.env` parsed line by line into an insertion-ordered dictionary. Also the checks on the required Ably key and the optional analytics ID, `__KEY__` placeholder substitution with `str.replace`, and the three pages `main` writes.

Every operation is a pure function over immutable values:

- One call of a tick function stands for one timer callback.
- A phone view is a record of its state.
- `.env` and the templates are inputs.
- A `sys.exit(1)` is an error value.

JavaScript's `Array.find`, `Array.filter` and removal of the found element are written once, in `JsArray`. Each view uses them with a named predicate.

Modules:

| module | what it models |
|---|---|
| `Wrappers` | `Option` and `Result` |
| `JsArray` | `find`, `findIndex`, `filter` and remove-at, with lemmas relating them |
| `Transport` | playhead advance, beat index, the host's Play/Pause transport |
| `Drafts` | draft / sent / `hasChanges` staging |
| `StepPattern` | drum and percussion toggles, Clear All, the step view |
| `BassRoll` | bass cell lookups, same-pitch toggle, two panels, the bass view |
| `ChordSlots` | chord cycling, the chords view |
| `HostGrid` | host lookups, per-cell shape, instrument rows |
| `EnvFile` | `str.strip`, first-`=` split, `.env` line parsing, the ordered dictionary |
| `Templates` | `str.replace` as split/join, placeholder substitution |
| `Build` | `load_env`, key validation, `build_html_file`, `main` |

The model follows the code as written:

- **Bass toggle.** A tap removes a note only if it has the same pitch and covers the tapped cell, and it removes only the first such note. Otherwise it appends a one-step note. No notes are evicted, whatever they overlap.
- **Drum toggle.** Re-tapping a step with the selected sound removes every hit at that step, not just one.
- **Edits and `hasChanges`.** Every edit sets `hasChanges`, including Clear and edits that restore the sent pattern. Nothing resets it except "send to mix".

## Model

| member | source | states |
|---|---|---|
| JsArray.FindIndex | v1-planning/v1-phone-ui-mockups.jsx:416-419 | the position found holds a match and no earlier element matches; there is none exactly when no element matches |
| JsArray.Find | v1-planning/v1-phone-ui-mockups.jsx:28 | the element found matches and is the first match of the array; there is none exactly when no element matches |
| JsArray.Filter | v1-planning/v1-phone-ui-mockups.jsx:31 | every kept element is in the input and passes the test, every passing input element is kept, and the result is no longer than the input |
| Transport.Advance | v1-planning/v1-phone-ui-mockups.jsx:45-50 | a tick keeps the playhead inside the bar; it moves one step, and wraps to 0 after the last step |
| Transport.AdvanceTimesIsOffset | v1-planning/v1-phone-ui-mockups.jsx:171 | after `n` ticks an in-range playhead sits at `(start + n) mod length` |
| Transport.FullBarReturns | v1-planning/v1-phone-ui-mockups.jsx:433 | a full bar of ticks (16 steps, or 4 chord slots) brings the playhead back to where it started |
| Transport.BeatIndex | v1-planning/v1-phone-ui-mockups.jsx:125-128 | the lit beat dot is the floor of step/4: `4*beat <= step < 4*beat + 4`; it is below 4 for every step of the bar |
| Transport.Tick | v1-planning/v1-host-screen-mockup.jsx:8-14 | the host playhead advances exactly as the phones' does while playing; while paused it does not move |
| Transport.TogglePlay | v1-planning/v1-host-screen-mockup.jsx:235-236 | Play/Pause flips the playing state and never moves the playhead |
| Transport.TogglePlayTwice | v1-planning/v1-host-screen-mockup.jsx:236 | pressing Play/Pause twice restores the transport |
| Transport.PausedTicksKeepStep | v1-planning/v1-host-screen-mockup.jsx:8-9 | any number of ticks while paused leaves the transport unchanged |
| Transport.PlayingTicksAdvance | v1-planning/v1-host-screen-mockup.jsx:8-14 | while playing, `n` host ticks put the playhead at `(start + n) mod 16`, the same as `n` phone ticks |
| Transport.HostStepInBar | v1-planning/v1-host-screen-mockup.jsx:216-223 | however many ticks pass, the host playhead stays in [0,16) and its beat dot index in [0,4) |
| Drafts.Edit | v1-planning/v1-phone-ui-mockups.jsx:415-424 | an edit replaces the draft, keeps the sent copy and always marks the view dirty |
| Drafts.SendToMix | v1-planning/v1-phone-ui-mockups.jsx:288-291 | after sending, the sent copy equals the draft and the view is clean |
| Drafts.SendToMixIdempotent | v1-planning/v1-phone-ui-mockups.jsx:426-429 | sending a second time changes nothing |
| Drafts.SendAfterEditPublishesEdit | v1-planning/v1-phone-ui-mockups.jsx:288-291 | edit-then-send publishes exactly the edited draft, whatever was sent before |
| StepPattern.GetStepSound | v1-planning/v1-phone-ui-mockups.jsx:40 | a cell shows the first hit of the pattern placed at that step, and shows nothing exactly when no hit is at that step |
| StepPattern.Resound | v1-planning/v1-phone-ui-mockups.jsx:33 | the `map` keeps length and every step; hits at the step take the new sound and all others are untouched |
| StepPattern.ToggleStep | v1-planning/v1-phone-ui-mockups.jsx:27-38 | there are three cases: an empty step gets the new hit appended after the unchanged pattern; a step showing the selected sound ends up empty, keeping every hit at other steps and adding none; a step showing another sound keeps length and steps, leaves hits at other steps unchanged, and shows the selected sound |
| StepPattern.ToggleShowsSelected | v1-planning/v1-phone-ui-mockups.jsx:27-38 | after a toggle the cell shows nothing if it showed the selected sound, and otherwise shows the selected sound |
| StepPattern.ToggleOtherCellsUnchanged | v1-planning/v1-phone-ui-mockups.jsx:152-163 | a toggle never changes what any other cell shows |
| StepPattern.RemoveUniqueStep | v1-planning/v1-phone-ui-mockups.jsx:31 | with one hit per step, filtering out a step removes exactly that one hit and keeps the rest in order |
| StepPattern.ToggleKeepsUniqueSteps | v1-planning/v1-phone-ui-mockups.jsx:27-38 | one hit per step is preserved; on such a pattern an occupied step either loses its one hit or has it replaced in place |
| StepPattern.ToggleTwiceRestores | v1-planning/v1-phone-ui-mockups.jsx:31-36 | toggling an empty step twice with the same sound gives back the original pattern |
| StepPattern.TapStep | v1-planning/v1-phone-ui-mockups.jsx:152-163 | a tap toggles the tapped step with the selected sound; the cell is filled afterwards iff it was empty or showed another sound; the selected sound and the playhead stay |
| StepPattern.ClearAll | v1-planning/v1-phone-ui-mockups.jsx:116 | CLEAR ALL empties every cell and keeps the sound and playhead |
| StepPattern.TickView | v1-planning/v1-phone-ui-mockups.jsx:169-174 | a tick moves the playhead one step along the 16-step bar, wrapping after the last step, and leaves the pattern and the selected sound alone |
| StepPattern.DrumsExample | v1-planning/v1-phone-ui-mockups.jsx:27-38 | worked example on part of the drums view's starting pattern: re-tapping a kick with kick selected deletes just that hit; tapping again with snare appends a snare |
| BassRoll.GetNoteAtCell | v1-planning/v1-phone-ui-mockups.jsx:407-409 | the cell lookup returns a note of that pitch covering the step, and returns nothing exactly when no such note exists |
| BassRoll.IsNoteStart | v1-planning/v1-phone-ui-mockups.jsx:411-413 | returns a note of that pitch starting at the step, and nothing exactly when there is none |
| BassRoll.StartIsCovered | v1-planning/v1-phone-ui-mockups.jsx:407-413 | a cell where a note of positive length starts is also drawn as covered |
| BassRoll.ToggleNote | v1-planning/v1-phone-ui-mockups.jsx:415-424 | an empty cell (column plus panel offset) gets a one-step note of that pitch appended; otherwise the first same-pitch note covering it is removed and the rest kept in order |
| BassRoll.ToggleFillsEmptyCell | v1-planning/v1-phone-ui-mockups.jsx:415-422 | after tapping an empty cell it is covered by the new one-step note |
| BassRoll.ToggleTwiceRestores | v1-planning/v1-phone-ui-mockups.jsx:415-422 | tapping an empty cell twice gives back the roll |
| BassRoll.ToggleOtherRowsUnchanged | v1-planning/v1-phone-ui-mockups.jsx:415-422 | a tap never changes what any other pitch row shows |
| BassRoll.ToggleKeepsRowsDisjoint | v1-planning/v1-phone-ui-mockups.jsx:415-422 | if no two same-pitch notes overlap before a tap, none overlap after it |
| BassRoll.TapCell | v1-planning/v1-phone-ui-mockups.jsx:415-424 | a tap toggles the draft, keeps the sent roll and sets `hasChanges` |
| BassRoll.ClearRoll | v1-planning/v1-phone-ui-mockups.jsx:511 | CLEAR makes the draft the empty roll, so every cell is empty; it keeps the sent roll and the playhead and marks the view dirty |
| BassRoll.SendRoll | v1-planning/v1-phone-ui-mockups.jsx:426-429 | sending publishes the draft as it is, clears `hasChanges` and leaves the playhead where it was |
| BassRoll.TickRoll | v1-planning/v1-phone-ui-mockups.jsx:431-436 | a tick moves the playhead one step along the 16-step bar, wrapping after the last step, and leaves the notes unchanged |
| BassRoll.TapSecondPanelExample | v1-planning/v1-phone-ui-mockups.jsx:415-422 | worked example: column 3 of the second panel is step 11; tapping it adds a note there and a second tap removes it |
| ChordSlots.IndexOf | v1-planning/v1-phone-ui-mockups.jsx:280 | `indexOf` gives the first position holding the chord, or -1 exactly when it is absent |
| ChordSlots.NextChordIsIndexSuccessor | v1-planning/v1-phone-ui-mockups.jsx:278-282 | the `(indexOf + 1) % 4` computation is the cycle Am→F→C→G→Am, with any other chord going to Am |
| ChordSlots.CycleChord | v1-planning/v1-phone-ui-mockups.jsx:278-286 | only the tapped slot changes, and it moves to the next chord |
| ChordSlots.CycleTimesOnlyTouchesSlot | v1-planning/v1-phone-ui-mockups.jsx:278-286 | `n` taps on a slot advance only that slot, `n` places along the cycle |
| ChordSlots.FourCyclesRestore | v1-planning/v1-phone-ui-mockups.jsx:270-286 | four taps on a slot holding one of the options restore the slot list |
| ChordSlots.UnknownChordJoinsCycle | v1-planning/v1-phone-ui-mockups.jsx:280-282 | a chord outside the options becomes Am on the first tap and then cycles with period four |
| ChordSlots.TapSlot | v1-planning/v1-phone-ui-mockups.jsx:278-286 | a tap cycles one slot to its next chord, keeps the others, the sent copy and the highlighted slot, and sets `hasChanges` |
| ChordSlots.SendSlots | v1-planning/v1-phone-ui-mockups.jsx:288-291 | sending publishes the slots and clears `hasChanges` |
| ChordSlots.TickSlots | v1-planning/v1-phone-ui-mockups.jsx:293-298 | a tick moves the highlight one slot along the four chord slots, wrapping after the last, and leaves the slots unchanged |
| HostGrid.IsNoteStart | v1-planning/v1-host-screen-mockup.jsx:90-92 | returns the first entry starting at the step, and nothing exactly when no entry starts there |
| HostGrid.GetNoteAtStep | v1-planning/v1-host-screen-mockup.jsx:84-87 | returns the first entry with `start <= step < start + duration`, and nothing exactly when none sounds there |
| HostGrid.IsStepInNote | v1-planning/v1-host-screen-mockup.jsx:76-81 | a discrete row finds an entry iff one starts at the step; a sustained row finds one iff one sounds there |
| HostGrid.LookupsAgree | v1-planning/v1-host-screen-mockup.jsx:76-92 | `isStepInNote`'s own two `find` predicates, written out as in the source, find the same entry as `isNoteStart` (discrete rows) and `getNoteAtStep` (sustained rows) |
| HostGrid.StartIsSounding | v1-planning/v1-host-screen-mockup.jsx:85-91 | an entry of duration at least 1 found at its start also sounds at that step |
| HostGrid.NoteEnd | v1-planning/v1-host-screen-mockup.jsx:147 | the end is `start + duration - 1` and lies at or after the queried step |
| HostGrid.CellAt | v1-planning/v1-host-screen-mockup.jsx:131-149 | the cell's entry is the row lookup and its text is that entry's name (empty when unlit); the label shows on a discrete row iff lit and on a sustained row iff a note starts there; a sustained cell is a start iff a note starts there and an end iff it is the last step of the note found; a middle cell is neither; discrete cells have no shape; a lit sustained cell is a start, end or middle; a cell plays iff it is current and lit |
| HostGrid.OnlyOneSounds | v1-planning/v1-host-screen-mockup.jsx:84-87 | in a pattern of non-overlapping notes at most one entry sounds at any step |
| HostGrid.SustainedShape | v1-planning/v1-host-screen-mockup.jsx:145-149 | on a well-formed sustained row a lit cell is the start exactly at the first step, the end exactly at the last, and a middle exactly in between |
| HostGrid.RowView | v1-planning/v1-host-screen-mockup.jsx:94-96 | a row is active iff a player joined and sustained iff the instrument is bass or chords; it has 16 cells and only the current one can play |
| HostGrid.ChordsRowExample | v1-planning/v1-host-screen-mockup.jsx:66-71 | worked example on the first two entries of the mock chords pattern: an Am lasting four steps is drawn start, middle, middle, end, and is playing at step 0 |
| HostGrid.MockAmCell | v1-planning/v1-host-screen-mockup.jsx:66-71 | on the first two entries of the mock chords pattern, each of the Am's four cells is lit by it, a start only at step 0, an end only at step 3 and a middle in between |
| EnvFile.Strip | build.py:41 | the result is the infix left after dropping leading and trailing whitespace; its ends are not whitespace |
| EnvFile.StripIdempotent | build.py:41 | stripping twice is stripping once |
| EnvFile.SplitFirst | build.py:46-47 | the split exists iff `=` occurs; key + `=` + value rebuilds the line, and the key has no `=` |
| EnvFile.SplitAtFirstEquals | build.py:47 | the split is at the first `=`, so the value keeps any later `=` |
| EnvFile.ParseLine | build.py:40-48 | a line yields a binding iff, once stripped, it is non-empty, does not start with `#` and contains `=`; the stripped line is then `key=value` with no `=` in the key, and the binding is the stripped key and the stripped value |
| EnvFile.ParseLineRoundTrip | build.py:41-48 | a trimmed `KEY=VALUE` line parses back to its key and value, even if the value contains `=` |
| EnvFile.Lookup | build.py:87 | a lookup finds a value iff the key is present, and the value is bound to that key |
| EnvFile.LookupUnique | build.py:87 | with unique keys a lookup finds the one binding of the key |
| EnvFile.Set | build.py:48 | assigning keeps an existing key in its position, appends a new key at the end, and keeps keys unique |
| EnvFile.LookupAfterSet | build.py:48 | after an assignment the key reads back the new value and every other key reads as before |
| EnvFile.LoadLines | build.py:39-48 | the dictionary built from the lines has unique keys; its key order is stated by `LoadLinesSnocKeys` and `LoadLinesKeysPrefix` |
| EnvFile.SetKeys | build.py:48 | an assignment keeps the key order when the key exists, and appends the key last when it is new |
| EnvFile.LoadLinesSnocKeys | build.py:40-48 | one more `.env` line appends the key it defines when that key is new, and otherwise leaves the key order unchanged |
| EnvFile.LoadLinesKeysPrefix | build.py:40-48 | the keys loaded from the first `n` lines are a prefix of those loaded from all lines, so keys stay in the order of the lines that first define them |
| EnvFile.LastDefined | build.py:40-48 | for any line parser: no value exactly when no line defines the key; otherwise the value of a line defining the key after which no line defines it |
| EnvFile.LastValue | build.py:40-48 | with `.env` line parsing: no value exactly when no line defines the key; otherwise the value given by the last line that defines it |
| EnvFile.LoadLinesLastWins | build.py:40-48 | every key holds the value of its last defining line, and absent keys have no defining line |
| EnvFile.IgnoredLines | build.py:41-46 | a line that yields no binding (blank, comment or `=`-less, by `ParseLine`) leaves the dictionary unchanged |
| Templates.ReplaceWithoutOccurrence | build.py:68-69 | text without the placeholder is unchanged by replacing it |
| Templates.ReplaceAtFirstOccurrence | build.py:69 | at the first occurrence, `str.replace` keeps the text before it, puts the replacement in its place and carries on with the text after it |
| Templates.SplitWithoutOccurrence | build.py:69 | text without the placeholder splits into one piece, itself |
| Templates.SplitAtFirstOccurrence | build.py:69 | the first piece of a split is the text before the first occurrence; the other pieces are those of the text after it |
| Templates.SplitPiecesFree | build.py:69 | no piece of a split contains the placeholder |
| Templates.ReplaceIsSplitJoin | build.py:69 | `str.replace` is splitting at the non-overlapping occurrences and joining with the replacement |
| Templates.SplitJoinRoundTrip | build.py:69 | joining the split pieces with the placeholder rebuilds the text |
| Templates.ReplaceBySelf | build.py:69 | replacing a placeholder by itself changes nothing |
| Templates.ReplaceEntry | build.py:66-70 | a `__KEY__` absent from the text leaves it unchanged; otherwise the text before the first occurrence is kept, the value takes that occurrence's place and the rest is processed the same way, which is the text split at the placeholder and joined with the value |
| Templates.ApplyEnv | build.py:66-70 | a template with none of the dictionary's placeholders comes out unchanged |
| Templates.ApplyEnvSnoc | build.py:66 | entries apply in dictionary order: one more entry at the end is one more pass over the text the earlier entries produced |
| Build.LoadEnv | build.py:12-50 | an Ably key in the environment gives exactly the environment dictionary (Ably key first, then the analytics ID if present); otherwise a missing `.env` is an error and a present one is parsed |
| Build.FromEnviron | build.py:17-23 | the dictionary taken from the environment is the Ably key first, then the analytics ID exactly when the environment has one, and nothing else; its keys are unique |
| Build.EnvironmentTakesPrecedence | build.py:17-23 | with the key in the environment the `.env` file is never consulted |
| Build.CheckKeys | build.py:86-103 | succeeds iff the Ably key is present and not the example value, with a distinct error for each failure; the checked dictionary is the input, or the input with the analytics ID assigned empty (in place if present, appended last if not); a missing or example analytics ID becomes empty and every other key is untouched |
| Build.BuildHtml | build.py:53-76 | a missing template is an error; otherwise the page is the template with the dictionary applied, which is the template itself when it mentions none of the dictionary's placeholders |
| Build.Main | build.py:79-113 | a successful run writes host.html, play.html and index.html in that order, with index.html equal to host.html; a failed run writes at most one page |
| Build.FailedBuildOutcome | build.py:84-113 | a failed load or key check reports that error and writes nothing; a missing host template writes nothing; a run that wrote exactly one page failed on the play template after writing host.html from the host template |
| Build.UnconfiguredBuildWritesNothing | build.py:84-93 | an example Ably key in the environment, or no key and no `.env`, stops the build before any page is written |
| Build.BuildSucceedsIffConfigured | build.py:84-113 | a build succeeds iff the keys load, the Ably key is present and not the example value, and both templates exist; host.html and play.html are then the templates with the checked dictionary applied |

## Left out

- Rendering: JSX, Tailwind classes, colours, sound and chord palettes, and the emoji and text of the mock screens. These are presentation only.
- Timers: `setInterval`, `clearInterval` and the 250 ms / 500 ms periods. One call of `Tick`, `TickView`, `TickRoll` or `TickSlots` is one timer callback.
- The host's mock QR pattern built with `Math.random()`. It is nondeterministic and cosmetic.
- Hard-coded mock data: initial patterns, room code, time and tempo. It appears only in the worked-example lemmas.
- Build-script I/O: `print`, and reading and writing files. The environment is a map, `.env` is its list of lines, and each template is an optional string. Splitting the file into lines and Python's newline handling are not modelled.
- `sys.exit`: it is an error result. The page written before a failing `build_html_file` is kept in the outcome's written list, but the bytes actually on disk are not modelled.
- Build.Main: its own contract states which pages a run writes and in what order. The converse, that a configured build succeeds, the contents of host.html and play.html, and which error a failed run reports with which pages are stated about `Main` by `BuildSucceedsIffConfigured` and `FailedBuildOutcome` rather than in `Main`'s own ensures.
- Not implemented in these files, so not modelled: slot claiming, per-slot commit locks, broadcast, resetting `hasChanges` when the draft equals the sent copy again, and evicting overlapping bass notes.
- ChordSlots.TapSlot: requires an in-range slot index. The view only offers buttons for its own slots. An out-of-range index in JavaScript would read `undefined` and grow the array.
- HostGrid.CellAt: the cell text is the entry's single `name`. The source picks the first truthy of `sound`, `note` and `chord`, so an empty name field that JavaScript would skip is not modelled.
- Templates.ReplaceEntry: does not prove that no placeholder remains after replacement. A value can itself contain the placeholder, or join with neighbouring text to form one, so the source does not promise that either.
- JsArray.Filter: stated through membership and length. The in-order behaviour is proved where it matters, in `FilterConcat`, `FilterDropsOne` and `StepPattern.RemoveUniqueStep`.

=== FILE: bass_roll.dfy ===
/** The bass piano roll on the phone: notes have a pitch (one row per pitch),
    a start step and a duration, and occupy the half-open step range
    `[step, step + duration)` of their row. The roll is drawn as two panels of
    eight cells; a cell of the second panel is addressed by its column plus
    the panel's start step. */
module BassRoll {
  import opened Wrappers
  import opened JsArray
  import Drafts
  import Transport

  datatype Note = Note(step: int, pitch: string, duration: int)

  type Roll = seq<Note>

  /** The width of a panel, which is also the second panel's start step. */
  const PanelSize: nat := 8

  predicate Covers(n: Note, pitch: string, step: int)
  {
    n.pitch == pitch && n.step <= step < n.step + n.duration
  }

  function CoversCell(pitch: string, step: int): Note -> bool
  {
    (n: Note) => Covers(n, pitch, step)
  }

  function StartsCell(pitch: string, step: int): Note -> bool
  {
    (n: Note) => n.pitch == pitch && n.step == step
  }

  predicate EmptyCell(notes: Roll, pitch: string, step: int)
  {
    forall j :: 0 <= j < |notes| ==> !Covers(notes[j], pitch, step)
  }

  /** `getNoteAtCell(note, step)`: the first note of that row sounding at the step. */
  function GetNoteAtCell(notes: Roll, pitch: string, step: int): (r: Option<Note>)
    ensures r.Some? ==> r.value in notes && Covers(r.value, pitch, step)
    ensures r.None? <==> EmptyCell(notes, pitch, step)
  {
    Find(notes, CoversCell(pitch, step))
  }

  /** `isNoteStart(note, step)`: the first note of that row beginning at the step. */
  function IsNoteStart(notes: Roll, pitch: string, step: int): (r: Option<Note>)
    ensures r.Some? ==> r.value in notes && r.value.pitch == pitch && r.value.step == step
    ensures r.None? <==> forall j :: 0 <= j < |notes| ==> !(notes[j].pitch == pitch && notes[j].step == step)
  {
    Find(notes, StartsCell(pitch, step))
  }

  /** A cell where a note of positive length starts is always drawn as filled. */
  lemma StartIsCovered(notes: Roll, pitch: string, step: int)
    requires IsNoteStart(notes, pitch, step).Some?
    requires IsNoteStart(notes, pitch, step).value.duration >= 1
    ensures GetNoteAtCell(notes, pitch, step).Some?
  {
    var n := IsNoteStart(notes, pitch, step).value;
    assert Covers(n, pitch, step);
  }

  /** `toggleNote(note, column, panelOffset)`: if a note of the same pitch
      sounds at the cell, that one note (the first such) is removed; otherwise a
      one-step note is appended at the cell. */
  function ToggleNote(notes: Roll, pitch: string, column: int, panelOffset: int): (r: Roll)
    ensures var cell := column + panelOffset;
      EmptyCell(notes, pitch, cell) ==> r == notes + [Note(cell, pitch, 1)]
    ensures var cell := column + panelOffset;
      !EmptyCell(notes, pitch, cell) ==>
        exists i :: 0 <= i < |notes| && Covers(notes[i], pitch, cell) &&
          (forall j :: 0 <= j < i ==> !Covers(notes[j], pitch, cell)) &&
          r == RemoveAt(notes, i)
  {
    var cell := column + panelOffset;
    match FindIndex(notes, CoversCell(pitch, cell))
    case Some(i) => RemoveAt(notes, i)
    case None => notes + [Note(cell, pitch, 1)]
  }

  /** After a tap the cell is filled exactly when it was empty, and then by the new one-step note. */
  lemma ToggleFillsEmptyCell(notes: Roll, pitch: string, cell: int)
    requires EmptyCell(notes, pitch, cell)
    ensures GetNoteAtCell(ToggleNote(notes, pitch, cell, 0), pitch, cell) == Some(Note(cell, pitch, 1))
  {
    FindIndexConcat(notes, [Note(cell, pitch, 1)], CoversCell(pitch, cell));
  }

  /** Tapping an empty cell twice gives back the roll. */
  lemma ToggleTwiceRestores(notes: Roll, pitch: string, column: int, panelOffset: int)
    requires EmptyCell(notes, pitch, column + panelOffset)
    ensures ToggleNote(ToggleNote(notes, pitch, column, panelOffset), pitch, column, panelOffset) == notes
  {
    var cell := column + panelOffset;
    var n := Note(cell, pitch, 1);
    var once := ToggleNote(notes, pitch, column, panelOffset);
    assert once == notes + [n];
    AddedNoteIsFirstCover(notes, pitch, cell);
    RemoveAppended(notes, n);
  }

  lemma AddedNoteIsFirstCover(notes: Roll, pitch: string, cell: int)
    requires EmptyCell(notes, pitch, cell)
    ensures FindIndex(notes + [Note(cell, pitch, 1)], CoversCell(pitch, cell)) == Some(|notes|)
  {
    var once := notes + [Note(cell, pitch, 1)];
    forall j | 0 <= j < |notes| ensures !CoversCell(pitch, cell)(once[j]) {
      assert once[j] == notes[j];
    }
    FirstMatchIs(once, CoversCell(pitch, cell), |notes|);
  }

  /** A tap in one row never changes what any other row shows. */
  lemma ToggleOtherRowsUnchanged(notes: Roll, pitch: string, column: int, panelOffset: int,
                                 other: string, step: int)
    requires other != pitch
    ensures GetNoteAtCell(ToggleNote(notes, pitch, column, panelOffset), other, step) ==
            GetNoteAtCell(notes, other, step)
  {
    var cell := column + panelOffset;
    var r := ToggleNote(notes, pitch, column, panelOffset);
    var q := CoversCell(other, step);
    var found := FindIndex(notes, CoversCell(pitch, cell));
    if found.Some? {
      var i := found.value;
      assert r == RemoveAt(notes, i);
      assert !q(notes[i]);
      FindRemoveAt(notes, i, q);
    } else {
      var n := Note(cell, pitch, 1);
      assert r == notes + [n];
      assert FindIndex([n], q) == None;
      FindIndexConcat(notes, [n], q);
    }
  }

  predicate Overlap(a: Note, b: Note)
  {
    a.step < b.step + b.duration && b.step < a.step + a.duration
  }

  /** No two notes of the same pitch share a step. */
  predicate RowsDisjoint(notes: Roll)
  {
    forall i, j :: 0 <= i < j < |notes| && notes[i].pitch == notes[j].pitch ==> !Overlap(notes[i], notes[j])
  }

  /** Tapping keeps notes of one row apart: a note is only added where its row is
      silent, and only one step long. (Notes of different rows may overlap.) */
  lemma ToggleKeepsRowsDisjoint(notes: Roll, pitch: string, column: int, panelOffset: int)
    requires RowsDisjoint(notes)
    ensures RowsDisjoint(ToggleNote(notes, pitch, column, panelOffset))
  {
    var cell := column + panelOffset;
    var found := FindIndex(notes, CoversCell(pitch, cell));
    var r := ToggleNote(notes, pitch, column, panelOffset);
    if found.Some? {
      RemoveKeepsRowsDisjoint(notes, found.value);
      assert r == RemoveAt(notes, found.value);
    } else {
      AddSilentKeepsRowsDisjoint(notes, pitch, cell);
      assert r == notes + [Note(cell, pitch, 1)];
    }
  }

  lemma RemoveKeepsRowsDisjoint(notes: Roll, k: nat)
    requires RowsDisjoint(notes)
    requires k < |notes|
    ensures RowsDisjoint(RemoveAt(notes, k))
  {
    var r := RemoveAt(notes, k);
    forall i, j | 0 <= i < j < |r| && r[i].pitch == r[j].pitch
      ensures !Overlap(r[i], r[j])
    {
      var i' := if i < k then i else i + 1;
      var j' := if j < k then j else j + 1;
      assert r[i] == notes[i'] && r[j] == notes[j'];
    }
  }

  lemma AddSilentKeepsRowsDisjoint(notes: Roll, pitch: string, cell: int)
    requires RowsDisjoint(notes)
    requires EmptyCell(notes, pitch, cell)
    ensures RowsDisjoint(notes + [Note(cell, pitch, 1)])
  {
    var r := notes + [Note(cell, pitch, 1)];
    forall i, j | 0 <= i < j < |r| && r[i].pitch == r[j].pitch
      ensures !Overlap(r[i], r[j])
    {
      if j == |notes| {
        assert !Covers(notes[i], pitch, cell);
      } else {
        assert r[i] == notes[i] && r[j] == notes[j];
      }
    }
  }

  /** The bass phone view: the roll's draft/sent pair and the playhead. */
  datatype BassView = BassView(notes: Drafts.Staged<Roll>, currentStep: nat)

  /** Tapping column `column` of the panel starting at `startStep`. */
  function TapCell(v: BassView, pitch: string, column: int, startStep: int): (r: BassView)
    ensures r.notes.draft == ToggleNote(v.notes.draft, pitch, column, startStep)
    ensures r.notes.sent == v.notes.sent && r.notes.hasChanges
    ensures r.currentStep == v.currentStep
  {
    v.(notes := Drafts.Edit(v.notes, ToggleNote(v.notes.draft, pitch, column, startStep)))
  }

  /** CLEAR: the draft empties and the view is marked dirty; the sent roll stays. */
  function ClearRoll(v: BassView): (r: BassView)
    ensures r.notes.draft == []
    ensures forall pitch, step :: EmptyCell(r.notes.draft, pitch, step)
    ensures r.notes.sent == v.notes.sent && r.notes.hasChanges
    ensures r.currentStep == v.currentStep
  {
    v.(notes := Drafts.Edit(v.notes, []))
  }

  /** SEND TO MIX. */
  function SendRoll(v: BassView): (r: BassView)
    ensures r.notes.sent == v.notes.draft && r.notes.draft == v.notes.draft
    ensures !r.notes.hasChanges
    ensures r.currentStep == v.currentStep
  {
    v.(notes := Drafts.SendToMix(v.notes))
  }

  /** One 250 ms playhead tick. */
  function TickRoll(v: BassView): (r: BassView)
    ensures r.currentStep < Transport.StepsPerBar && r.notes == v.notes
    ensures r.currentStep == Transport.Advance(v.currentStep, Transport.StepsPerBar)
  {
    v.(currentStep := Transport.Advance(v.currentStep, Transport.StepsPerBar))
  }

  /** The scenario of a one-step note placed on an empty second-panel cell and taken off again. */
  lemma TapSecondPanelExample()
    ensures
      var start := [Note(0, "C", 3), Note(4, "G", 4), Note(9, "F", 2), Note(12, "E", 3)];
      var once := ToggleNote(start, "G", 3, PanelSize);
      && once == start + [Note(11, "G", 1)]
      && ToggleNote(once, "G", 3, PanelSize) == start
  {
    var start := [Note(0, "C", 3), Note(4, "G", 4), Note(9, "F", 2), Note(12, "E", 3)];
    assert EmptyCell(start, "G", 11);
    ToggleTwiceRestores(start, "G", 3, PanelSize);
  }
}

=== FILE: build.dfy ===
/** The build script end to end: choose where the keys come from, check the
    required and optional keys, and render the three HTML pages. The process
    environment and the files are inputs; a `sys.exit(1)` is an error result
    together with the pages already written. */
module Build {
  import opened Wrappers
  import opened EnvFile
  import opened Templates
  import JsArray

  const AblyKey := "ABLY_API_KEY"
  const Ga4Key := "GA4_MEASUREMENT_ID"
  /** The values shipped in `.env.example`, which count as "not configured". */
  const AblyExampleValue := "your_ably_api_key_here"
  const Ga4ExampleValue := "G-XXXXXXXXXX"

  datatype BuildError =
    | EnvFileMissing
    | AblyKeyMissing
    | AblyKeyNotSet
    | TemplateMissing(path: string)

  /** `load_env()`: a CI environment that defines the Ably key wins outright
      and contributes only the two known keys; otherwise `.env` is read,
      and its absence stops the build. */
  function LoadEnv(environ: map<string, string>, envFile: Option<seq<string>>): (r: Result<Env, BuildError>)
    ensures AblyKey in environ ==> r == Ok(FromEnviron(environ))
    ensures AblyKey in environ ==> r.Ok? && UniqueKeys(r.value)
    ensures AblyKey in environ ==> Lookup(r.value, AblyKey) == Some(environ[AblyKey])
    ensures AblyKey in environ ==> forall k :: k != AblyKey && k != Ga4Key ==> Lookup(r.value, k).None?
    ensures AblyKey in environ ==> Lookup(r.value, Ga4Key) == if Ga4Key in environ then Some(environ[Ga4Key]) else None
    ensures AblyKey !in environ && envFile.None? ==> r == Err(EnvFileMissing)
    ensures AblyKey !in environ && envFile.Some? ==> r == Ok(LoadLines(envFile.value))
  {
    if AblyKey in environ then
      Ok(FromEnviron(environ))
    else if envFile.None? then Err(EnvFileMissing)
    else Ok(LoadLines(envFile.value))
  }

  /** The dictionary built from the process environment: the Ably key, then
      the analytics ID when the environment has one. */
  function FromEnviron(environ: map<string, string>): (r: Env)
    requires AblyKey in environ
    ensures |r| == if Ga4Key in environ then 2 else 1
    ensures r[0] == Binding(AblyKey, environ[AblyKey])
    ensures Ga4Key in environ ==> r[1] == Binding(Ga4Key, environ[Ga4Key])
    ensures UniqueKeys(r)
    ensures Lookup(r, AblyKey) == Some(environ[AblyKey])
    ensures forall k :: k != AblyKey && k != Ga4Key ==> Lookup(r, k).None?
    ensures Lookup(r, Ga4Key) == if Ga4Key in environ then Some(environ[Ga4Key]) else None
  {
    var ably := [Binding(AblyKey, environ[AblyKey])];
    if Ga4Key in environ then
      var both := ably + [Binding(Ga4Key, environ[Ga4Key])];
      assert both[0] == Binding(AblyKey, environ[AblyKey]);
      assert forall k :: HasKey(both, k) ==> k == AblyKey || k == Ga4Key;
      assert JsArray.FindIndex(both, KeyIs(Ga4Key)) == Some(1);
      both
    else
      assert forall k :: HasKey(ably, k) ==> k == AblyKey;
      ably
  }

  /** With the key in the process environment, `.env` is never consulted. */
  lemma EnvironmentTakesPrecedence(environ: map<string, string>, f1: Option<seq<string>>, f2: Option<seq<string>>)
    requires AblyKey in environ
    ensures LoadEnv(environ, f1) == LoadEnv(environ, f2)
  {
  }

  /** The key checks of `main()`: the Ably key must be present and not the
      example value; a missing or example analytics ID becomes empty so its
      placeholder still gets replaced. */
  function CheckKeys(env: Env): (r: Result<Env, BuildError>)
    requires UniqueKeys(env)
    ensures r.Ok? <==> Lookup(env, AblyKey).Some? && Lookup(env, AblyKey).value != AblyExampleValue
    ensures Lookup(env, AblyKey).None? ==> r == Err(AblyKeyMissing)
    ensures Lookup(env, AblyKey).Some? && Lookup(env, AblyKey).value == AblyExampleValue ==> r == Err(AblyKeyNotSet)
    ensures r.Ok? ==> UniqueKeys(r.value)
    ensures r.Ok? ==> r.value == env || r.value == Set(env, Ga4Key, "")
    ensures r.Ok? ==> forall k :: k != Ga4Key ==> Lookup(r.value, k) == Lookup(env, k)
    ensures r.Ok? ==>
      Lookup(r.value, Ga4Key) ==
        (match Lookup(env, Ga4Key)
         case Some(id) => if id != Ga4ExampleValue then Some(id) else Some("")
         case None => Some(""))
  {
    match Lookup(env, AblyKey)
    case None => Err(AblyKeyMissing)
    case Some(key) =>
      if key == AblyExampleValue then Err(AblyKeyNotSet)
      else
        var ga := Lookup(env, Ga4Key);
        if ga.Some? && ga.value != Ga4ExampleValue then Ok(env)
        else
          var r := Set(env, Ga4Key, "");
          LookupAfterSetAll(env, Ga4Key, "");
          Ok(r)
  }

  lemma LookupAfterSetAll(env: Env, key: string, value: string)
    requires UniqueKeys(env)
    ensures Lookup(Set(env, key, value), key) == Some(value)
    ensures forall k :: k != key ==> Lookup(Set(env, key, value), k) == Lookup(env, k)
  {
    forall k | true
      ensures Lookup(Set(env, key, value), key) == Some(value)
      ensures k != key ==> Lookup(Set(env, key, value), k) == Lookup(env, k)
    {
      LookupAfterSet(env, key, value, k);
    }
  }

  /** `build_html_file`: a missing template stops the build. */
  function BuildHtml(path: string, template: Option<string>, env: Env): (r: Result<string, BuildError>)
    ensures template.None? <==> r == Err(TemplateMissing(path))
    ensures template.Some? ==> r == Ok(ApplyEnv(template.value, env))
    ensures template.Some? && (forall i :: 0 <= i < |env| ==> !Contains(template.value, Placeholder(env[i].key))) ==>
      r == Ok(template.value)
  {
    match template
    case None => Err(TemplateMissing(path))
    case Some(content) => Ok(ApplyEnv(content, env))
  }

  /** What a run leaves behind: the pages written, in order, and the error that stopped it, if any. */
  datatype Outcome = Outcome(written: seq<(string, string)>, failure: Option<BuildError>)

  /** `main()`, given the process environment, the lines of `.env` and the two templates. */
  function Main(environ: map<string, string>, envFile: Option<seq<string>>,
                hostTemplate: Option<string>, playTemplate: Option<string>): (o: Outcome)
    ensures o.failure.None? ==> |o.written| == 3
    ensures o.failure.None? ==>
      o.written[0].0 == "host.html" && o.written[1].0 == "play.html" && o.written[2].0 == "index.html"
    ensures o.failure.None? ==> o.written[2].1 == o.written[0].1
    ensures o.failure.Some? ==> |o.written| <= 1
  {
    match LoadEnv(environ, envFile)
    case Err(e) => Outcome([], Some(e))
    case Ok(loaded) =>
      match CheckKeys(loaded)
      case Err(e) => Outcome([], Some(e))
      case Ok(env) =>
        match BuildHtml("host.template.html", hostTemplate, env)
        case Err(e) => Outcome([], Some(e))
        case Ok(host) =>
          match BuildHtml("play.template.html", playTemplate, env)
          case Err(e) => Outcome([("host.html", host)], Some(e))
          case Ok(play) =>
            Outcome([("host.html", host), ("play.html", play), ("index.html", host)], None)
  }

  /** An Ably key left at its example value in the environment stops the
      build before anything is written; so does a missing `.env` when the
      environment has no key. */
  lemma UnconfiguredBuildWritesNothing(environ: map<string, string>, envFile: Option<seq<string>>,
                                       hostTemplate: Option<string>, playTemplate: Option<string>)
    ensures AblyKey in environ && environ[AblyKey] == AblyExampleValue ==>
      Main(environ, envFile, hostTemplate, playTemplate) == Outcome([], Some(AblyKeyNotSet))
    ensures AblyKey !in environ && envFile.None? ==>
      Main(environ, envFile, hostTemplate, playTemplate) == Outcome([], Some(EnvFileMissing))
  {
  }

  /** A failed run reports the first check that failed. Nothing is written
      before the key checks or when the host template is missing; the only
      partial run is host.html written before a missing play template. */
  lemma FailedBuildOutcome(environ: map<string, string>, envFile: Option<seq<string>>,
                           hostTemplate: Option<string>, playTemplate: Option<string>)
    ensures LoadEnv(environ, envFile).Err? ==>
      Main(environ, envFile, hostTemplate, playTemplate) == Outcome([], Some(LoadEnv(environ, envFile).error))
    ensures LoadEnv(environ, envFile).Ok? && CheckKeys(LoadEnv(environ, envFile).value).Err? ==>
      Main(environ, envFile, hostTemplate, playTemplate) ==
        Outcome([], Some(CheckKeys(LoadEnv(environ, envFile).value).error))
    ensures LoadEnv(environ, envFile).Ok? && CheckKeys(LoadEnv(environ, envFile).value).Ok? && hostTemplate.None? ==>
      Main(environ, envFile, hostTemplate, playTemplate) == Outcome([], Some(TemplateMissing("host.template.html")))
    ensures var o := Main(environ, envFile, hostTemplate, playTemplate);
      o.failure.Some? && |o.written| == 1 ==>
        && hostTemplate.Some? && playTemplate.None?
        && o.failure == Some(TemplateMissing("play.template.html"))
        && o.written == [("host.html", ApplyEnv(hostTemplate.value, CheckKeys(LoadEnv(environ, envFile).value).value))]
  {
  }

  /** A build is configured when the keys load, the Ably key is present and
      not the example value, and both templates exist. */
  predicate Configured(environ: map<string, string>, envFile: Option<seq<string>>,
                       hostTemplate: Option<string>, playTemplate: Option<string>)
  {
    && LoadEnv(environ, envFile).Ok?
    && Lookup(LoadEnv(environ, envFile).value, AblyKey).Some?
    && Lookup(LoadEnv(environ, envFile).value, AblyKey).value != AblyExampleValue
    && hostTemplate.Some? && playTemplate.Some?
  }

  /** A build succeeds exactly when it is configured, and then the pages are
      the two templates with the checked keys substituted. */
  lemma BuildSucceedsIffConfigured(environ: map<string, string>, envFile: Option<seq<string>>,
                                   hostTemplate: Option<string>, playTemplate: Option<string>)
    ensures Main(environ, envFile, hostTemplate, playTemplate).failure.None? <==>
      Configured(environ, envFile, hostTemplate, playTemplate)
    ensures Configured(environ, envFile, hostTemplate, playTemplate) ==>
      var env := CheckKeys(LoadEnv(environ, envFile).value).value;
      && Main(environ, envFile, hostTemplate, playTemplate).written[0].1 == ApplyEnv(hostTemplate.value, env)
      && Main(environ, envFile, hostTemplate, playTemplate).written[1].1 == ApplyEnv(playTemplate.value, env)
  {
  }
}

=== FILE: chord_slots.dfy ===
/** The chords phone view: four bar slots, each holding a chord name. Tapping
    a slot cycles its chord through the option list; the slots are staged as a
    draft and sent to the mix as a whole. */
module ChordSlots {
  import Drafts
  import Transport

  /** The cycle order of the chord buttons. */
  const ChordOptions: seq<string> := ["Am", "F", "C", "G"]

  /** `indexOf`: the first position holding `c`, or -1 when there is none. */
  function IndexOf(s: seq<string>, c: string): (r: int)
    ensures -1 <= r < |s|
    ensures r >= 0 ==> s[r] == c && forall j :: 0 <= j < r ==> s[j] != c
    ensures r == -1 <==> c !in s
  {
    if |s| == 0 then -1
    else if s[0] == c then 0
    else
      var k := IndexOf(s[1..], c);
      if k == -1 then -1 else k + 1
  }

  /** The chord a tap moves a slot to, as the button cycle: Am, F, C, G and
      back to Am; any other chord moves to Am. */
  function NextChord(c: string): (next: string)
  {
    if c == "Am" then "F"
    else if c == "F" then "C"
    else if c == "C" then "G"
    else "Am"
  }

  /** The handler's own computation: the option after `indexOf(c)`, wrapping,
      where a chord outside the list has index -1 and so lands on the first
      option. It agrees with the button cycle on every string. */
  lemma NextChordIsIndexSuccessor(c: string)
    ensures NextChord(c) == ChordOptions[(IndexOf(ChordOptions, c) + 1) % |ChordOptions|]
  {
    var i := IndexOf(ChordOptions, c);
    if i == -1 {
      assert c != ChordOptions[0] && c != ChordOptions[1] && c != ChordOptions[2] && c != ChordOptions[3];
    } else if i == 0 {
      assert c == ChordOptions[0];
    } else if i == 1 {
      assert c == ChordOptions[1];
    } else if i == 2 {
      assert c == ChordOptions[2];
    } else {
      assert c == ChordOptions[3];
    }
  }

  /** `cycleChord(slotIndex)` on the slot list: only that slot changes. */
  function CycleChord(slots: seq<string>, slotIndex: nat): (r: seq<string>)
    requires slotIndex < |slots|
    ensures |r| == |slots|
    ensures r[slotIndex] == NextChord(slots[slotIndex])
    ensures forall j :: 0 <= j < |slots| && j != slotIndex ==> r[j] == slots[j]
  {
    slots[slotIndex := NextChord(slots[slotIndex])]
  }

  /** `n` taps on one slot. A helper for stating repeated taps: what they
      do is proved in `CycleTimesOnlyTouchesSlot` and `FourCyclesRestore`. */
  function CycleTimes(slots: seq<string>, slotIndex: nat, n: nat): (r: seq<string>)
    requires slotIndex < |slots|
    ensures |r| == |slots|
  {
    if n == 0 then slots else CycleChord(CycleTimes(slots, slotIndex, n - 1), slotIndex)
  }

  function NextTimes(c: string, n: nat): (r: string)
  {
    if n == 0 then c else NextChord(NextTimes(c, n - 1))
  }

  /** Repeated taps on one slot only ever move that slot along the cycle. */
  lemma {:induction false} CycleTimesOnlyTouchesSlot(slots: seq<string>, slotIndex: nat, n: nat)
    requires slotIndex < |slots|
    ensures CycleTimes(slots, slotIndex, n) == slots[slotIndex := NextTimes(slots[slotIndex], n)]
  {
    if n > 0 {
      CycleTimesOnlyTouchesSlot(slots, slotIndex, n - 1);
      var prev := NextTimes(slots[slotIndex], n - 1);
      var before := slots[slotIndex := prev];
      assert CycleTimes(slots, slotIndex, n) == CycleChord(before, slotIndex);
      assert before[slotIndex := NextChord(prev)] == slots[slotIndex := NextChord(prev)];
    }
  }

  lemma FourNextRestore(c: string)
    requires c in ChordOptions
    ensures NextTimes(c, |ChordOptions|) == c
  {
    CycleOrder();
    assert NextTimes(c, 4) == NextChord(NextChord(NextChord(NextChord(c))));
  }

  /** The button cycle: Am, F, C, G and back to Am. */
  lemma CycleOrder()
    ensures NextChord("Am") == "F" && NextChord("F") == "C"
    ensures NextChord("C") == "G" && NextChord("G") == "Am"
    ensures ChordOptions == ["Am", "F", "C", "G"]
  {
  }

  /** Four taps on a slot holding one of the options bring it back. */
  lemma FourCyclesRestore(slots: seq<string>, slotIndex: nat)
    requires slotIndex < |slots|
    requires slots[slotIndex] in ChordOptions
    ensures CycleTimes(slots, slotIndex, |ChordOptions|) == slots
  {
    CycleTimesOnlyTouchesSlot(slots, slotIndex, |ChordOptions|);
    FourNextRestore(slots[slotIndex]);
  }

  /** A slot holding an unknown chord becomes Am on the first tap and then cycles. */
  lemma UnknownChordJoinsCycle(slots: seq<string>, slotIndex: nat)
    requires slotIndex < |slots|
    requires slots[slotIndex] !in ChordOptions
    ensures CycleChord(slots, slotIndex)[slotIndex] == "Am"
    ensures CycleTimes(CycleChord(slots, slotIndex), slotIndex, |ChordOptions|) == CycleChord(slots, slotIndex)
  {
    FourCyclesRestore(CycleChord(slots, slotIndex), slotIndex);
  }

  /** The chords phone view: the staged slot list and the slot playhead. */
  datatype ChordsView = ChordsView(slots: Drafts.Staged<seq<string>>, currentSlot: nat)

  /** Tapping slot `slotIndex` (the view only offers its own slots). */
  function TapSlot(v: ChordsView, slotIndex: nat): (r: ChordsView)
    requires slotIndex < |v.slots.draft|
    ensures |r.slots.draft| == |v.slots.draft|
    ensures r.slots.draft[slotIndex] == NextChord(v.slots.draft[slotIndex])
    ensures forall j :: 0 <= j < |v.slots.draft| && j != slotIndex ==> r.slots.draft[j] == v.slots.draft[j]
    ensures r.slots.sent == v.slots.sent && r.slots.hasChanges
    ensures r.currentSlot == v.currentSlot
  {
    v.(slots := Drafts.Edit(v.slots, CycleChord(v.slots.draft, slotIndex)))
  }

  /** SEND TO MIX. */
  function SendSlots(v: ChordsView): (r: ChordsView)
    ensures r.slots.sent == v.slots.draft && !r.slots.hasChanges
    ensures r.slots.draft == v.slots.draft && r.currentSlot == v.currentSlot
  {
    v.(slots := Drafts.SendToMix(v.slots))
  }

  /** One 500 ms tick: the highlighted slot moves on, wrapping after the fourth. */
  function TickSlots(v: ChordsView): (r: ChordsView)
    ensures r.currentSlot < Transport.ChordSlotsPerBar
    ensures r.currentSlot == Transport.Advance(v.currentSlot, Transport.ChordSlotsPerBar)
    ensures r.slots == v.slots
  {
    v.(currentSlot := Transport.Advance(v.currentSlot, Transport.ChordSlotsPerBar))
  }
}

=== FILE: drafts.dfy ===
/** The draft / "send to mix" staging shared by the bass and chords views:
    the phone edits a private draft, remembers what it last sent, and shows
    "Draft" while `hasChanges` is set and "Synced" otherwise. */
module Drafts {

  datatype Staged<T> = Staged(draft: T, sent: T, hasChanges: bool)

  /** Any edit of the draft (a toggle, a chord cycle, Clear): the sent copy is
      untouched and the view is marked dirty, whatever the new draft is. */
  function Edit<T>(s: Staged<T>, newDraft: T): (r: Staged<T>)
    ensures r.draft == newDraft
    ensures r.sent == s.sent
    ensures r.hasChanges
  {
    s.(draft := newDraft, hasChanges := true)
  }

  /** `sendToMix`: the sent copy becomes the draft and the view is synced. */
  function SendToMix<T>(s: Staged<T>): (r: Staged<T>)
    ensures r.sent == s.draft
    ensures r.draft == s.draft
    ensures !r.hasChanges
  {
    s.(sent := s.draft, hasChanges := false)
  }

  /** Sending twice is the same as sending once. */
  lemma SendToMixIdempotent<T>(s: Staged<T>)
    ensures SendToMix(SendToMix(s)) == SendToMix(s)
  {
  }

  /** Sending loses no edit: edit-then-send publishes exactly the edited draft,
      whatever was sent before. */
  lemma SendAfterEditPublishesEdit<T>(s: Staged<T>, newDraft: T)
    ensures SendToMix(Edit(s, newDraft)).sent == newDraft
    ensures SendToMix(Edit(s, newDraft)) == SendToMix(s.(draft := newDraft))
  {
  }
}

=== FILE: env_file.dfy ===
/** The build script's environment: `.env` lines parsed into an
    insertion-ordered dictionary (Python's `dict`), whose order later decides
    the order placeholders are replaced in. */
module EnvFile {
  import opened Wrappers
  import opened JsArray

  /** Python's `str.isspace()`: the characters `str.strip()` removes. */
  predicate IsSpace(c: char)
  {
    var n := c as int;
    || 9 <= n <= 13 || 28 <= n <= 32 || n == 0x85 || n == 0xA0 || n == 0x1680
    || 0x2000 <= n <= 0x200A || n == 0x2028 || n == 0x2029 || n == 0x202F
    || n == 0x205F || n == 0x3000
  }

  function TrimStart(s: string): (r: string)
    ensures |r| <= |s| && r == s[|s| - |r|..]
    ensures forall k :: 0 <= k < |s| - |r| ==> IsSpace(s[k])
    ensures |r| > 0 ==> !IsSpace(r[0])
  {
    if |s| > 0 && IsSpace(s[0]) then
      var t := TrimStart(s[1..]);
      TrimStartStep(s, s[1..], t);
      t
    else s
  }

  /** Dropping one leading space keeps `t` a suffix preceded only by spaces. */
  lemma TrimStartStep(s: string, tail: string, t: string)
    requires |s| > 0 && IsSpace(s[0]) && tail == s[1..]
    requires |t| <= |tail| && t == tail[|tail| - |t|..]
    requires forall k :: 0 <= k < |tail| - |t| ==> IsSpace(tail[k])
    ensures |t| <= |s| && t == s[|s| - |t|..]
    ensures forall k :: 0 <= k < |s| - |t| ==> IsSpace(s[k])
  {
    forall k | 0 <= k < |s| - |t|
      ensures IsSpace(s[k])
    {
      if k > 0 {
        assert s[k] == tail[k - 1];
      }
    }
  }

  function TrimEnd(s: string): (r: string)
    ensures |r| <= |s| && r == s[..|r|]
    ensures forall k :: |r| <= k < |s| ==> IsSpace(s[k])
    ensures |r| > 0 ==> !IsSpace(r[|r| - 1])
  {
    if |s| > 0 && IsSpace(s[|s| - 1]) then TrimEnd(s[..|s| - 1]) else s
  }

  /** `str.strip()`: the infix left after dropping leading and trailing whitespace. */
  function Strip(s: string): (r: string)
    ensures |r| > 0 ==> !IsSpace(r[0]) && !IsSpace(r[|r| - 1])
    ensures forall k :: 0 <= k < |r| ==> r[k] in s
    ensures exists i :: InfixWithSpaceAround(s, r, i)
  {
    StripIsTrimmedInfix(s);
    TrimEnd(TrimStart(s))
  }

  predicate InfixWithSpaceAround(s: string, r: string, i: int)
  {
    && 0 <= i <= |s| - |r| && r == s[i..][..|r|]
    && (forall k :: 0 <= k < i ==> IsSpace(s[k]))
    && (forall k :: i + |r| <= k < |s| ==> IsSpace(s[k]))
  }

  lemma StripIsTrimmedInfix(s: string)
    ensures exists i :: InfixWithSpaceAround(s, TrimEnd(TrimStart(s)), i)
    ensures var r := TrimEnd(TrimStart(s));
      forall k :: 0 <= k < |r| ==> r[k] in s
    ensures var r := TrimEnd(TrimStart(s));
      |r| > 0 ==> !IsSpace(r[0]) && !IsSpace(r[|r| - 1])
  {
    var t := TrimStart(s);
    var r := TrimEnd(t);
    var i := |s| - |t|;
    if |r| > 0 {
      assert r[0] == t[0];
    }
    assert t == s[i..];
    forall k | i + |r| <= k < |s|
      ensures IsSpace(s[k])
    {
      assert s[k] == t[k - i];
    }
    assert InfixWithSpaceAround(s, r, i);
    forall k | 0 <= k < |r|
      ensures r[k] in s
    {
      assert r[k] == s[i + k];
    }
  }

  /** A string with no whitespace at either end is left as it is. */
  lemma StripKeepsTrimmed(s: string)
    requires |s| > 0 ==> !IsSpace(s[0]) && !IsSpace(s[|s| - 1])
    ensures Strip(s) == s
  {
    if |s| > 0 {
      assert TrimStart(s) == s;
      assert TrimEnd(s) == s;
    }
  }

  /** Stripping is determined by its two properties, so it is idempotent. */
  lemma StripIdempotent(s: string)
    ensures Strip(Strip(s)) == Strip(s)
  {
    StripKeepsTrimmed(Strip(s));
  }

  function IsChar(sep: char): char -> bool
  {
    (c: char) => c == sep
  }

  /** `line.split(sep, 1)` when `sep in line`: the text before the first
      separator and everything after it. */
  function SplitFirst(line: string, sep: char): (r: Option<(string, string)>)
    ensures r.None? <==> sep !in line
    ensures r.Some? ==> r.value.0 + [sep] + r.value.1 == line
    ensures r.Some? ==> sep !in r.value.0
  {
    match FindIndex(line, IsChar(sep))
    case None => None
    case Some(i) =>
      assert line == line[..i] + [sep] + line[i + 1..];
      Some((line[..i], line[i + 1..]))
  }

  /** The separator split on is the first one: the value keeps any later `=`. */
  lemma SplitAtFirstEquals(key: string, value: string)
    requires '=' !in key
    ensures SplitFirst(key + "=" + value, '=') == Some((key, value))
  {
    var line := key + "=" + value;
    assert IsChar('=')(line[|key|]);
    forall j | 0 <= j < |key| ensures !IsChar('=')(line[j]) {
      assert line[j] == key[j];
    }
    assert FindIndex(line, IsChar('=')) == Some(|key|);
    assert line[..|key|] == key && line[|key| + 1..] == value;
  }

  /** One line of `.env`: blank lines, `#` comments and lines without `=`
      yield nothing; otherwise the stripped key and value around the first `=`. */
  function ParseLine(raw: string): (r: Option<(string, string)>)
    ensures r.Some? <==> Strip(raw) != [] && Strip(raw)[0] != '#' && '=' in Strip(raw)
    ensures r.Some? ==>
      exists key, value :: Strip(raw) == key + "=" + value && '=' !in key && r.value == (Strip(key), Strip(value))
    ensures r.Some? ==> '=' !in r.value.0
    ensures r.Some? ==> Strip(r.value.0) == r.value.0 && Strip(r.value.1) == r.value.1
  {
    var line := Strip(raw);
    if |line| == 0 || line[0] == '#' then None
    else match SplitFirst(line, '=')
      case None => None
      case Some((key, value)) =>
        StripIdempotent(key);
        StripIdempotent(value);
        assert line == key + "=" + value;
        Some((Strip(key), Strip(value)))
  }

  /** A `KEY=VALUE` line written without surrounding spaces parses back to
      its key and value, whatever `=` the value contains. */
  lemma ParseLineRoundTrip(key: string, value: string)
    requires |key| > 0 && key[0] != '#' && '=' !in key
    requires Strip(key) == key && Strip(value) == value
    ensures ParseLine(key + "=" + value) == Some((key, value))
  {
    var line := key + "=" + value;
    assert line[0] == key[0];
    assert line[|line| - 1] == if |value| > 0 then value[|value| - 1] else '=';
    StripKeepsTrimmed(line);
    SplitAtFirstEquals(key, value);
  }

  datatype Binding = Binding(key: string, value: string)

  /** A Python `dict` from strings to strings: its entries in insertion order. */
  type Env = seq<Binding>

  predicate UniqueKeys(env: Env)
  {
    forall i, j :: 0 <= i < j < |env| ==> env[i].key != env[j].key
  }

  function KeyIs(key: string): Binding -> bool
  {
    (b: Binding) => b.key == key
  }

  predicate HasKey(env: Env, key: string)
  {
    exists i :: 0 <= i < |env| && env[i].key == key
  }

  /** `env[key]` / `key in env`. */
  function Lookup(env: Env, key: string): (r: Option<string>)
    ensures r.None? <==> !HasKey(env, key)
    ensures r.Some? ==> Binding(key, r.value) in env
  {
    match Find(env, KeyIs(key))
    case None => None
    case Some(b) => Some(b.value)
  }

  /** With unique keys, the binding found is the only one for its key. */
  lemma LookupUnique(env: Env, i: nat)
    requires UniqueKeys(env)
    requires i < |env|
    ensures Lookup(env, env[i].key) == Some(env[i].value)
  {
    var k := FindIndex(env, KeyIs(env[i].key)).value;
    assert k == i by {
      if k < i { assert env[k].key == env[i].key; }
    }
  }

  /** `env[key] = value`: an existing key keeps its place and takes the new
      value, a new key goes at the end. */
  function Set(env: Env, key: string, value: string): (r: Env)
    ensures HasKey(env, key) ==>
      |r| == |env| && forall i :: 0 <= i < |env| ==> r[i].key == env[i].key
    ensures !HasKey(env, key) ==> r == env + [Binding(key, value)]
    ensures UniqueKeys(env) ==> UniqueKeys(r)
  {
    match FindIndex(env, KeyIs(key))
    case None => env + [Binding(key, value)]
    case Some(i) => env[i := Binding(key, value)]
  }

  /** After an assignment the key reads back the new value and no other key changes. */
  lemma LookupAfterSet(env: Env, key: string, value: string, other: string)
    requires UniqueKeys(env)
    ensures Lookup(Set(env, key, value), key) == Some(value)
    ensures other != key ==> Lookup(Set(env, key, value), other) == Lookup(env, other)
  {
    var r := Set(env, key, value);
    match FindIndex(env, KeyIs(key))
    case None =>
      FindIndexConcat(env, [Binding(key, value)], KeyIs(key));
      FindIndexConcat(env, [Binding(key, value)], KeyIs(other));
    case Some(i) =>
      LookupUnique(r, i);
      if other != key {
        FindIndexAgree(r, env, KeyIs(other));
      }
  }

  /** The dictionary `load_env` builds from the lines of `.env`, line by line. */
  function LoadLines(lines: seq<string>): (r: Env)
    ensures UniqueKeys(r)
  {
    if |lines| == 0 then []
    else
      var env := LoadLines(lines[..|lines| - 1]);
      match ParseLine(lines[|lines| - 1])
      case None => env
      case Some((key, value)) => Set(env, key, value)
  }

  /** Under `parse`, the line binds `key`. */
  predicate Defines(parse: string -> Option<(string, string)>, line: string, key: string)
  {
    parse(line).Some? && parse(line).value.0 == key
  }

  /** The value the last line binding `key` under `parse` gives it: the reading
      of a file where a later line overrides an earlier one. */
  function LastDefined(parse: string -> Option<(string, string)>, lines: seq<string>, key: string): (r: Option<string>)
    ensures r.None? <==> forall i :: 0 <= i < |lines| ==> !Defines(parse, lines[i], key)
    ensures r.Some? ==>
      exists i :: 0 <= i < |lines| && parse(lines[i]) == Some((key, r.value)) &&
        forall j :: i < j < |lines| ==> !Defines(parse, lines[j], key)
  {
    if |lines| == 0 then None
    else
      var prefix := lines[..|lines| - 1];
      assert forall i :: 0 <= i < |prefix| ==> prefix[i] == lines[i];
      match parse(lines[|lines| - 1])
      case Some((k, v)) => if k == key then Some(v) else LastDefined(parse, prefix, key)
      case None => LastDefined(parse, prefix, key)
  }

  /** The value the last `.env` line defining `key` gives it. */
  function LastValue(lines: seq<string>, key: string): (r: Option<string>)
    ensures r.None? <==> forall i :: 0 <= i < |lines| ==> !Defines(ParseLine, lines[i], key)
    ensures r.Some? ==>
      exists i :: 0 <= i < |lines| && ParseLine(lines[i]) == Some((key, r.value)) &&
        forall j :: i < j < |lines| ==> !Defines(ParseLine, lines[j], key)
  {
    LastDefined(ParseLine, lines, key)
  }

  /** Every key of the loaded dictionary holds the value of its last defining line. */
  lemma {:induction false} LoadLinesLastWins(lines: seq<string>, key: string)
    ensures Lookup(LoadLines(lines), key) == LastValue(lines, key)
  {
    if |lines| > 0 {
      var prefix := lines[..|lines| - 1];
      LoadLinesLastWins(prefix, key);
      match ParseLine(lines[|lines| - 1])
      case None =>
      case Some((k, v)) =>
        LookupAfterSet(LoadLines(prefix), k, v, key);
    }
  }

  /** The keys of a dictionary, in insertion order. */
  function Keys(env: Env): seq<string>
  {
    seq(|env|, i requires 0 <= i < |env| => env[i].key)
  }

  /** An assignment keeps the key order; a new key goes last. */
  lemma SetKeys(env: Env, key: string, value: string)
    ensures key in Keys(env) ==> Keys(Set(env, key, value)) == Keys(env)
    ensures key !in Keys(env) ==> Keys(Set(env, key, value)) == Keys(env) + [key]
  {
    if key in Keys(env) {
      var i :| 0 <= i < |env| && Keys(env)[i] == key;
      assert env[i].key == key;
    } else {
      assert !HasKey(env, key) by {
        forall i | 0 <= i < |env| ensures env[i].key != key { assert Keys(env)[i] == env[i].key; }
      }
    }
  }

  /** One more line of `.env` either leaves the key order alone or appends
      the key it defines, when that key is new. */
  lemma LoadLinesSnocKeys(lines: seq<string>, raw: string)
    ensures var before := Keys(LoadLines(lines));
      var after := Keys(LoadLines(lines + [raw]));
      if ParseLine(raw).Some? && ParseLine(raw).value.0 !in before then after == before + [ParseLine(raw).value.0]
      else after == before
    ensures Keys(LoadLines(lines)) <= Keys(LoadLines(lines + [raw]))
  {
    assert (lines + [raw])[..|lines|] == lines;
    match ParseLine(raw)
    case None =>
    case Some((k, v)) => SetKeys(LoadLines(lines), k, v);
  }

  lemma PrefixTrans(a: seq<string>, b: seq<string>, c: seq<string>)
    requires a <= b && b <= c
    ensures a <= c
  {
  }

  /** Keys enter the dictionary in the order of the lines that first define
      them: the keys loaded from the first `n` lines are a prefix of the keys
      loaded from all of them. */
  lemma {:induction false} LoadLinesKeysPrefix(lines: seq<string>, n: nat)
    requires n <= |lines|
    ensures Keys(LoadLines(lines[..n])) <= Keys(LoadLines(lines))
    decreases |lines|
  {
    if n < |lines| {
      var init, last := lines[..|lines| - 1], lines[|lines| - 1];
      assert init[..n] == lines[..n];
      assert init + [last] == lines;
      LoadLinesKeysPrefix(init, n);
      LoadLinesSnocKeys(init, last);
      PrefixTrans(Keys(LoadLines(lines[..n])), Keys(LoadLines(init)), Keys(LoadLines(init + [last])));
    } else {
      assert lines[..n] == lines;
    }
  }

  /** A line that parses to nothing (blank, a comment, no `=`, by `ParseLine`'s
      contract) leaves the dictionary as it was. */
  lemma IgnoredLines(lines: seq<string>, raw: string)
    ensures ParseLine(raw).None? ==> LoadLines(lines + [raw]) == LoadLines(lines)
  {
    assert (lines + [raw])[..|lines|] == lines;
  }
}

=== FILE: host_grid.dfy ===
/** The host screen's read-only view of the committed patterns: which cells
    of each instrument row are lit, labelled, and drawn as the start, middle
    or end of a sustained note. Drum and percussion rows are discrete (a hit
    lights only its own step); bass and chord rows are sustained (an entry
    lights `[step, step + duration)`). */
module HostGrid {
  import opened Wrappers
  import opened JsArray
  import Transport

  /** A pattern entry as the host receives it. `name` is whichever of the
      sound, note or chord name the entry carries; drum hits have no duration. */
  datatype Entry = Entry(step: int, name: string, duration: Option<int>)

  type Pattern = seq<Entry>

  /** `step >= p.step && step < p.step + p.duration`; an entry without a
      duration never satisfies it (the JavaScript comparison with `undefined`
      is false). */
  predicate Sounds(e: Entry, step: int)
  {
    e.duration.Some? && e.step <= step < e.step + e.duration.value
  }

  function SoundsAt(step: int): Entry -> bool
  {
    (e: Entry) => Sounds(e, step)
  }

  function StartsAt(step: int): Entry -> bool
  {
    (e: Entry) => e.step == step
  }

  /** `isNoteStart(pattern, step)`: the first entry beginning at `step`. */
  function IsNoteStart(p: Pattern, step: int): (r: Option<Entry>)
    ensures r.Some? ==> r.value in p && r.value.step == step
    ensures r.Some? ==>
      exists i :: 0 <= i < |p| && p[i] == r.value && forall j :: 0 <= j < i ==> p[j].step != step
    ensures r.None? <==> forall j :: 0 <= j < |p| ==> p[j].step != step
  {
    Find(p, StartsAt(step))
  }

  /** `getNoteAtStep(pattern, step)`: the first entry sounding at `step`. */
  function GetNoteAtStep(p: Pattern, step: int): (r: Option<Entry>)
    ensures r.Some? ==> r.value in p && Sounds(r.value, step)
    ensures r.Some? ==>
      exists i :: 0 <= i < |p| && p[i] == r.value && forall j :: 0 <= j < i ==> !Sounds(p[j], step)
    ensures r.None? <==> forall j :: 0 <= j < |p| ==> !Sounds(p[j], step)
  {
    Find(p, SoundsAt(step))
  }

  /** `isStepInNote(pattern, step, isSustained)`: a discrete row looks for an
      entry starting at the step, a sustained row for one sounding there. */
  function IsStepInNote(p: Pattern, step: int, sustained: bool): (r: Option<Entry>)
    ensures !sustained ==> (r.Some? <==> exists j :: 0 <= j < |p| && p[j].step == step)
    ensures !sustained && r.Some? ==> r.value.step == step
    ensures sustained ==> (r.Some? <==> exists j :: 0 <= j < |p| && Sounds(p[j], step))
    ensures sustained && r.Some? ==> Sounds(r.value, step)
    ensures r.Some? ==> r.value in p
  {
    if !sustained then Find(p, (e: Entry) => e.step == step)
    else Find(p, (e: Entry) => e.duration.Some? && step >= e.step && step < e.step + e.duration.value)
  }

  /** On a discrete row the two lookups agree; on a sustained row a cell is lit exactly where a note sounds. */
  lemma LookupsAgree(p: Pattern, step: int)
    ensures IsStepInNote(p, step, false) == IsNoteStart(p, step)
    ensures IsStepInNote(p, step, true) == GetNoteAtStep(p, step)
  {
    FindSamePredicate(p, (e: Entry) => e.step == step, StartsAt(step));
    FindSamePredicate(p, (e: Entry) => e.duration.Some? && step >= e.step && step < e.step + e.duration.value,
                      SoundsAt(step));
  }

  /** An entry of positive length found at its start also lights that step. */
  lemma StartIsSounding(p: Pattern, step: int)
    requires IsNoteStart(p, step).Some?
    requires IsNoteStart(p, step).value.duration.Some?
    requires IsNoteStart(p, step).value.duration.value >= 1
    ensures GetNoteAtStep(p, step).Some?
  {
    assert Sounds(IsNoteStart(p, step).value, step);
  }

  /** The last step a sounding note covers, or the step itself when no note sounds. */
  function NoteEnd(noteData: Option<Entry>, step: int): (e: int)
    requires noteData.Some? ==> Sounds(noteData.value, step)
    ensures noteData.Some? ==> noteData.value.step <= step <= e
    ensures noteData.Some? ==> e == noteData.value.step + noteData.value.duration.value - 1
    ensures noteData.None? ==> e == step
  {
    match noteData
    case Some(n) => n.step + n.duration.value - 1
    case None => step
  }

  /** How one cell of a row is drawn. */
  datatype Cell = Cell(hit: Option<Entry>, showLabel: bool, text: string,
                       isStart: bool, isEnd: bool, isMiddle: bool, isPlaying: bool)

  /** The per-cell computation of an instrument row. */
  function CellAt(p: Pattern, step: int, sustained: bool, currentStep: int): (c: Cell)
    ensures c.hit == IsStepInNote(p, step, sustained)
    ensures c.isPlaying <==> step == currentStep && c.hit.Some?
    ensures c.isMiddle ==> !c.isStart && !c.isEnd
    ensures !sustained ==> !c.isStart && !c.isEnd && !c.isMiddle
    ensures sustained && c.hit.Some? ==> c.isStart || c.isEnd || c.isMiddle
    ensures c.hit.None? ==> !c.isEnd && !c.isMiddle && c.text == ""
    ensures c.isStart <==> sustained && IsNoteStart(p, step).Some?
    ensures !sustained ==> c.showLabel == c.hit.Some?
    ensures sustained ==> (c.showLabel <==> IsNoteStart(p, step).Some?)
    ensures c.hit.Some? ==> c.text == c.hit.value.name
    ensures sustained && c.hit.Some? ==>
      (c.isEnd <==> step == c.hit.value.step + c.hit.value.duration.value - 1)
  {
    LookupsAgree(p, step);
    var hit := IsStepInNote(p, step, sustained);
    var begin := IsNoteStart(p, step);
    var noteData := if sustained then GetNoteAtStep(p, step) else None;
    var isStart := sustained && begin.Some?;
    var noteEnd := NoteEnd(noteData, step);
    var isEnd := sustained && hit.Some? && step == noteEnd;
    var isMiddle := sustained && hit.Some? && !isStart && !isEnd;
    Cell(hit,
         if sustained then begin.Some? else hit.Some?,
         if hit.Some? then hit.value.name else "",
         isStart, isEnd, isMiddle,
         step == currentStep && hit.Some?)
  }

  predicate Overlap(a: Entry, b: Entry)
  {
    a.duration.Some? && b.duration.Some? &&
    a.step < b.step + b.duration.value && b.step < a.step + a.duration.value
  }

  /** A sustained row with no overlaps: every note at least one step long and
      no two notes sounding at the same step. The bass view does not keep
      its roll this way, since notes of different pitches may overlap; the
      lemmas below state what the drawing does on rows that are. */
  predicate WellFormedSustained(p: Pattern)
  {
    && (forall i :: 0 <= i < |p| ==> p[i].duration.Some? && p[i].duration.value >= 1)
    && (forall i, j :: 0 <= i < j < |p| ==> !Overlap(p[i], p[j]))
  }

  lemma OnlyOneSounds(p: Pattern, step: int, i: nat, j: nat)
    requires WellFormedSustained(p)
    requires i < |p| && j < |p|
    requires Sounds(p[i], step) && Sounds(p[j], step)
    ensures i == j
  {
    if i < j {
      assert Overlap(p[i], p[j]);
    } else if j < i {
      assert Overlap(p[j], p[i]);
    }
  }

  /** On a well-formed sustained row a lit cell is drawn as the start exactly
      at the note's first step, as the end exactly at its last step, and as a
      middle exactly strictly between them. */
  lemma SustainedShape(p: Pattern, step: int, currentStep: int)
    requires WellFormedSustained(p)
    requires GetNoteAtStep(p, step).Some?
    ensures var n := GetNoteAtStep(p, step).value;
      var c := CellAt(p, step, true, currentStep);
      && (c.isStart <==> step == n.step)
      && (c.isEnd <==> step == n.step + n.duration.value - 1)
      && (c.isMiddle <==> n.step < step < n.step + n.duration.value - 1)
  {
    var n := GetNoteAtStep(p, step).value;
    var i :| 0 <= i < |p| && p[i] == n;
    match IsNoteStart(p, step)
    case Some(b) =>
      var k :| 0 <= k < |p| && p[k] == b;
      assert Sounds(p[k], step);
      OnlyOneSounds(p, step, i, k);
    case None =>
  }

  /** One instrument row: active when a player has joined, sustained for bass and chords. */
  datatype Row = Row(isActive: bool, isSustained: bool, cells: seq<Cell>)

  function RowView(instrument: string, player: Option<string>, p: Pattern, currentStep: int): (r: Row)
    ensures r.isActive <==> player.Some?
    ensures r.isSustained <==> instrument == "bass" || instrument == "chords"
    ensures |r.cells| == Transport.StepsPerBar
    ensures forall k :: 0 <= k < |r.cells| ==> r.cells[k] == CellAt(p, k, r.isSustained, currentStep)
    ensures forall k :: 0 <= k < |r.cells| && k != currentStep ==> !r.cells[k].isPlaying
  {
    var sustained := instrument == "bass" || instrument == "chords";
    Row(player.Some?, sustained,
        seq(Transport.StepsPerBar, k requires 0 <= k < Transport.StepsPerBar => CellAt(p, k, sustained, currentStep)))
  }

  /** The first two entries of the host's mock chords pattern. */
  const MockChords: Pattern := [Entry(0, "Am", Some(4)), Entry(4, "F", Some(4))]

  /** One cell of the Am in `MockChords`: lit by it, a start only at its first
      step, an end only at its last, a middle in between. */
  lemma MockAmCell(step: int)
    requires 0 <= step < 4
    ensures var c := CellAt(MockChords, step, true, 0);
      && c.hit == Some(MockChords[0])
      && (c.isStart <==> step == 0) && (c.isEnd <==> step == 3)
      && (0 < step < 3 ==> c.isMiddle)
  {
    var p := MockChords;
    assert Sounds(p[0], step);
    assert FindIndex(p, SoundsAt(step)) == Some(0);
    LookupsAgree(p, step);
    if step == 0 {
      assert p[0].step == 0;
    } else {
      assert IsNoteStart(p, step).None?;
    }
  }

  /** The chords row of the host screen: Am over the first beat is drawn start, middle, middle, end. */
  lemma ChordsRowExample()
    ensures
      var p := MockChords;
      && CellAt(p, 0, true, 0).isStart && CellAt(p, 0, true, 0).isPlaying
      && CellAt(p, 1, true, 0).isMiddle && CellAt(p, 2, true, 0).isMiddle
      && CellAt(p, 3, true, 0).isEnd && !CellAt(p, 3, true, 0).isStart
      && CellAt(p, 3, true, 0).text == "Am"
  {
    MockAmCell(0);
    MockAmCell(1);
    MockAmCell(2);
    MockAmCell(3);
  }
}

=== FILE: jsarray.dfy ===
/** The three array operations the mockups build on: `Array.prototype.find`
    (first element satisfying a predicate), `Array.prototype.filter`, and
    removal of one element found by `find`. */
module JsArray {
  import opened Wrappers

  /** Index of the first element satisfying `p`, or `None` when there is none. */
  function FindIndex<T>(s: seq<T>, p: T -> bool): (r: Option<nat>)
    ensures r.Some? ==> r.value < |s| && p(s[r.value])
    ensures r.Some? ==> forall j :: 0 <= j < r.value ==> !p(s[j])
    ensures r.None? <==> forall j :: 0 <= j < |s| ==> !p(s[j])
  {
    if |s| == 0 then None
    else if p(s[0]) then Some(0)
    else match FindIndex(s[1..], p)
      case None => None
      case Some(i) => Some(i + 1)
  }

  /** `s.find(p)`: the first element satisfying `p`. */
  function Find<T>(s: seq<T>, p: T -> bool): (r: Option<T>)
    ensures r.Some? ==> p(r.value) && r.value in s
    ensures r.Some? ==> exists i :: 0 <= i < |s| && s[i] == r.value && forall j :: 0 <= j < i ==> !p(s[j])
    ensures r.None? <==> forall j :: 0 <= j < |s| ==> !p(s[j])
  {
    match FindIndex(s, p)
    case None => None
    case Some(i) => Some(s[i])
  }

  /** `s.filter(p)`: the elements satisfying `p`, in their original order. */
  function Filter<T>(s: seq<T>, p: T -> bool): (r: seq<T>)
    ensures |r| <= |s|
    ensures forall j :: 0 <= j < |r| ==> r[j] in s && p(r[j])
    ensures forall j :: 0 <= j < |s| && p(s[j]) ==> s[j] in r
  {
    if |s| == 0 then []
    else if p(s[0]) then [s[0]] + Filter(s[1..], p)
    else Filter(s[1..], p)
  }

  /** The sequence without its `i`-th element, the others kept in order. */
  function RemoveAt<T>(s: seq<T>, i: nat): (r: seq<T>)
    requires i < |s|
    ensures |r| == |s| - 1
    ensures forall j :: 0 <= j < i ==> r[j] == s[j]
    ensures forall j :: i <= j < |r| ==> r[j] == s[j + 1]
  {
    s[..i] + s[i + 1..]
  }

  /** Removing the element just appended gives back the sequence. */
  lemma RemoveAppended<T>(s: seq<T>, x: T)
    ensures RemoveAt(s + [x], |s|) == s
  {
    assert (s + [x])[..|s|] == s;
  }

  /** Filtering distributes over concatenation, so it keeps relative order. */
  lemma {:induction false} FilterConcat<T>(a: seq<T>, b: seq<T>, p: T -> bool)
    ensures Filter(a + b, p) == Filter(a, p) + Filter(b, p)
  {
    if |a| == 0 {
      assert a + b == b;
    } else {
      assert (a + b)[1..] == a[1..] + b;
      FilterConcat(a[1..], b, p);
    }
  }

  /** A filter every element passes returns its input unchanged. */
  lemma {:induction false} FilterKeepsAll<T>(s: seq<T>, p: T -> bool)
    requires forall j :: 0 <= j < |s| ==> p(s[j])
    ensures Filter(s, p) == s
  {
    if |s| > 0 {
      FilterKeepsAll(s[1..], p);
    }
  }

  /** If exactly one element (at `i`) fails the filter, filtering removes just it. */
  lemma {:induction false} FilterDropsOne<T>(s: seq<T>, i: nat, p: T -> bool)
    requires i < |s|
    requires !p(s[i])
    requires forall j :: 0 <= j < |s| && j != i ==> p(s[j])
    ensures Filter(s, p) == RemoveAt(s, i)
  {
    var tail := s[1..];
    if i == 0 {
      FilterKeepsAll(tail, p);
    } else {
      forall j | 0 <= j < |tail| && j != i - 1 ensures p(tail[j]) {
        assert tail[j] == s[j + 1];
      }
      FilterDropsOne(tail, i - 1, p);
      assert Filter(s, p) == [s[0]] + Filter(tail, p);
      assert tail[..i - 1] == s[1..i] && tail[i..] == s[i + 1..];
      assert s[..i] == [s[0]] + s[1..i];
    }
  }

  /** `find` over a concatenation looks in the second part only when the first has no match. */
  lemma FindIndexConcat<T>(a: seq<T>, b: seq<T>, p: T -> bool)
    ensures FindIndex(a + b, p) ==
      match FindIndex(a, p)
      case Some(i) => Some(i)
      case None => match FindIndex(b, p)
        case Some(k) => Some(|a| + k)
        case None => None
  {
    match FindIndex(a, p)
    case Some(i) =>
      forall j | 0 <= j <= i ensures (a + b)[j] == a[j] { }
      FirstMatchIs(a + b, p, i);
    case None =>
      match FindIndex(b, p)
      case Some(k) =>
        forall j | 0 <= j <= |a| + k
          ensures (a + b)[j] == if j < |a| then a[j] else b[j - |a|]
        { }
        FirstMatchIs(a + b, p, |a| + k);
      case None =>
        forall j | 0 <= j < |a + b| ensures !p((a + b)[j]) {
          if j < |a| {
            assert (a + b)[j] == a[j];
          } else {
            assert (a + b)[j] == b[j - |a|];
          }
        }
  }

  /** Two sequences that agree element-wise wherever `p` might hold have the same first match. */
  lemma FindIndexAgree<T>(a: seq<T>, b: seq<T>, p: T -> bool)
    requires |a| == |b|
    requires forall i :: 0 <= i < |a| ==> (p(a[i]) <==> p(b[i]))
    ensures FindIndex(a, p) == FindIndex(b, p)
  {
  }

  /** Two predicates that agree on every element find the same element. */
  lemma FindSamePredicate<T>(s: seq<T>, p: T -> bool, q: T -> bool)
    requires forall i :: 0 <= i < |s| ==> (p(s[i]) <==> q(s[i]))
    ensures Find(s, p) == Find(s, q)
  {
  }

  /** Filtering with a predicate implied by `p` does not change the first `p`-match. */
  lemma {:induction false} FindFilter<T>(s: seq<T>, p: T -> bool, q: T -> bool)
    requires forall x :: p(x) ==> q(x)
    ensures Find(Filter(s, q), p) == Find(s, p)
  {
    if |s| > 0 {
      FindFilter(s[1..], p, q);
      if q(s[0]) {
        var f := [s[0]] + Filter(s[1..], q);
        assert f[1..] == Filter(s[1..], q);
        assert Find(f, p) == if p(s[0]) then Some(s[0]) else Find(f[1..], p);
      }
    }
  }

  /** Removing an element that does not match leaves the first match where it was. */
  lemma FindRemoveAt<T>(s: seq<T>, i: nat, p: T -> bool)
    requires i < |s|
    requires !p(s[i])
    ensures Find(RemoveAt(s, i), p) == Find(s, p)
  {
    var r := RemoveAt(s, i);
    match FindIndex(s, p)
    case None =>
      forall j | 0 <= j < |r| ensures !p(r[j]) {
        if j < i { assert r[j] == s[j]; } else { assert r[j] == s[j + 1]; }
      }
    case Some(k) =>
      var k' := if k < i then k else k - 1;
      assert r[k'] == s[k];
      forall j | 0 <= j < k' ensures !p(r[j]) {
        if j < i { assert r[j] == s[j]; } else { assert r[j] == s[j + 1]; }
      }
      FirstMatchIs(r, p, k');
  }

  /** A matching position with no match before it is the one `find` returns. */
  lemma FirstMatchIs<T>(s: seq<T>, p: T -> bool, k: nat)
    requires k < |s| && p(s[k])
    requires forall j :: 0 <= j < k ==> !p(s[j])
    ensures FindIndex(s, p) == Some(k)
  {
  }
}

=== FILE: step_pattern.dfy ===
/** The discrete step grid of the drums and percussion phone views (the two
    views share this logic word for word). A pattern is the list of hits in
    the order they were placed; a cell shows the first hit at its step. */
module StepPattern {
  import opened Wrappers
  import opened JsArray
  import Transport

  datatype Hit = Hit(step: int, sound: string)

  type Pattern = seq<Hit>

  function AtStep(step: int): Hit -> bool
  {
    (h: Hit) => h.step == step
  }

  function NotAtStep(step: int): Hit -> bool
  {
    (h: Hit) => h.step != step
  }

  /** At most one hit per step: the shape every toggle keeps. */
  predicate UniqueSteps(p: Pattern)
  {
    forall i, j :: 0 <= i < j < |p| ==> p[i].step != p[j].step
  }

  predicate EmptyAt(p: Pattern, step: int)
  {
    forall j :: 0 <= j < |p| ==> p[j].step != step
  }

  /** `getStepSound(step)`: the hit a cell shows, if any. */
  function GetStepSound(p: Pattern, step: int): (r: Option<Hit>)
    ensures r.Some? ==> r.value in p && r.value.step == step
    ensures r.Some? ==>
      exists i :: 0 <= i < |p| && p[i] == r.value && forall j :: 0 <= j < i ==> p[j].step != step
    ensures r.None? <==> EmptyAt(p, step)
  {
    Find(p, AtStep(step))
  }

  /** Every hit at `step` takes the new sound; nothing else is touched. */
  function Resound(p: Pattern, step: int, sound: string): (r: Pattern)
    ensures |r| == |p|
    ensures forall i :: 0 <= i < |p| ==> r[i].step == p[i].step
    ensures forall i :: 0 <= i < |p| && p[i].step != step ==> r[i] == p[i]
    ensures forall i :: 0 <= i < |p| && p[i].step == step ==> r[i].sound == sound
  {
    seq(|p|, i requires 0 <= i < |p| => if p[i].step == step then p[i].(sound := sound) else p[i])
  }

  /** `toggleStep(step)` with the currently selected sound:
      an empty step gets a new hit at the end of the list; a step showing the
      selected sound loses all its hits; a step showing another sound switches
      to the selected one in place. */
  function ToggleStep(p: Pattern, step: int, selected: string): (r: Pattern)
    ensures EmptyAt(p, step) ==> r == p + [Hit(step, selected)]
    ensures !EmptyAt(p, step) && GetStepSound(p, step).value.sound == selected ==>
      && EmptyAt(r, step)
      && (forall j :: 0 <= j < |r| ==> r[j] in p)
      && (forall j :: 0 <= j < |p| && p[j].step != step ==> p[j] in r)
    ensures !EmptyAt(p, step) && GetStepSound(p, step).value.sound != selected ==>
      && |r| == |p|
      && (forall j :: 0 <= j < |p| ==> r[j].step == p[j].step)
      && (forall j :: 0 <= j < |p| && p[j].step != step ==> r[j] == p[j])
      && GetStepSound(r, step) == Some(Hit(step, selected))
  {
    match GetStepSound(p, step)
    case None => p + [Hit(step, selected)]
    case Some(existing) =>
      if existing.sound == selected then Filter(p, NotAtStep(step))
      else
        var r := Resound(p, step, selected);
        ResoundShows(p, step, selected);
        r
  }

  lemma ResoundShows(p: Pattern, step: int, sound: string)
    requires !EmptyAt(p, step)
    ensures GetStepSound(Resound(p, step, sound), step) == Some(Hit(step, sound))
  {
    var r := Resound(p, step, sound);
    FindIndexAgree(r, p, AtStep(step));
  }

  /** After a toggle the cell shows nothing (same sound was there) or the selected sound. */
  lemma ToggleShowsSelected(p: Pattern, step: int, selected: string)
    ensures GetStepSound(ToggleStep(p, step, selected), step) ==
      if !EmptyAt(p, step) && GetStepSound(p, step).value.sound == selected then None
      else Some(Hit(step, selected))
  {
    if EmptyAt(p, step) {
      FindIndexConcat(p, [Hit(step, selected)], AtStep(step));
    }
  }

  /** A toggle never changes what any other cell shows. */
  lemma ToggleOtherCellsUnchanged(p: Pattern, step: int, selected: string, other: int)
    requires other != step
    ensures GetStepSound(ToggleStep(p, step, selected), other) == GetStepSound(p, other)
  {
    var r := ToggleStep(p, step, selected);
    match GetStepSound(p, step)
    case None =>
      FindIndexConcat(p, [Hit(step, selected)], AtStep(other));
    case Some(existing) =>
      if existing.sound == selected {
        FindFilter(p, AtStep(other), NotAtStep(step));
      } else {
        FindIndexAgree(r, p, AtStep(other));
      }
  }

  /** With one hit per step, removing by filter deletes exactly that hit and keeps the rest in order. */
  lemma RemoveUniqueStep(p: Pattern, i: nat)
    requires UniqueSteps(p)
    requires i < |p|
    ensures Filter(p, NotAtStep(p[i].step)) == RemoveAt(p, i)
  {
    FilterDropsOne(p, i, NotAtStep(p[i].step));
  }

  /** Toggling keeps at most one hit per step; on such a pattern the three
      cases are exactly: append, delete the one hit, replace its sound. */
  lemma ToggleKeepsUniqueSteps(p: Pattern, step: int, selected: string)
    requires UniqueSteps(p)
    ensures UniqueSteps(ToggleStep(p, step, selected))
    ensures !EmptyAt(p, step) ==>
      exists i :: 0 <= i < |p| && p[i].step == step &&
        ToggleStep(p, step, selected) ==
          (if p[i].sound == selected then RemoveAt(p, i) else p[i := Hit(step, selected)])
  {
    match FindIndex(p, AtStep(step))
    case None =>
      var r := p + [Hit(step, selected)];
      assert forall j :: 0 <= j < |p| ==> r[j] == p[j];
    case Some(i) =>
      if p[i].sound == selected {
        RemoveUniqueStep(p, i);
      } else {
        ResoundUnique(p, i, selected);
      }
  }

  /** With one hit per step, re-sounding a step changes just its one hit. */
  lemma ResoundUnique(p: Pattern, i: nat, sound: string)
    requires UniqueSteps(p)
    requires i < |p|
    ensures Resound(p, p[i].step, sound) == p[i := Hit(p[i].step, sound)]
  {
  }

  /** Toggling an empty step twice with the same sound gives back the pattern. */
  lemma ToggleTwiceRestores(p: Pattern, step: int, selected: string)
    requires EmptyAt(p, step)
    ensures ToggleStep(ToggleStep(p, step, selected), step, selected) == p
  {
    var h := Hit(step, selected);
    FindIndexConcat(p, [h], AtStep(step));
    FilterConcat(p, [h], NotAtStep(step));
    FilterKeepsAll(p, NotAtStep(step));
  }

  /** A phone step view: the selected sound button, the pattern and the playhead. */
  datatype StepView = StepView(selectedSound: string, pattern: Pattern, currentStep: nat)

  /** Tapping a cell of the grid. */
  function TapStep(v: StepView, step: int): (r: StepView)
    ensures r.pattern == ToggleStep(v.pattern, step, v.selectedSound)
    ensures r.selectedSound == v.selectedSound && r.currentStep == v.currentStep
    ensures GetStepSound(r.pattern, step).Some? <==>
      (EmptyAt(v.pattern, step) || GetStepSound(v.pattern, step).value.sound != v.selectedSound)
  {
    ToggleShowsSelected(v.pattern, step, v.selectedSound);
    v.(pattern := ToggleStep(v.pattern, step, v.selectedSound))
  }

  /** CLEAR ALL: every cell becomes empty; sound and playhead stay. */
  function ClearAll(v: StepView): (r: StepView)
    ensures forall step :: EmptyAt(r.pattern, step)
    ensures r.selectedSound == v.selectedSound && r.currentStep == v.currentStep
  {
    v.(pattern := [])
  }

  /** One 250 ms playhead tick of the phone view. */
  function TickView(v: StepView): (r: StepView)
    ensures r.currentStep < Transport.StepsPerBar
    ensures r.currentStep == Transport.Advance(v.currentStep, Transport.StepsPerBar)
    ensures r.pattern == v.pattern && r.selectedSound == v.selectedSound
  {
    v.(currentStep := Transport.Advance(v.currentStep, Transport.StepsPerBar))
  }

  /** Part of the drums view's starting pattern, and the walk-through of removing the
      kick at step 4 and putting a snare there instead. */
  lemma DrumsExample()
    ensures
      var start := [Hit(0, "kick"), Hit(4, "kick"), Hit(2, "snare")];
      var once := ToggleStep(start, 4, "kick");
      && UniqueSteps(start)
      && once == RemoveAt(start, 1)
      && ToggleStep(once, 4, "snare") == once + [Hit(4, "snare")]
  {
    var start := [Hit(0, "kick"), Hit(4, "kick"), Hit(2, "snare")];
    assert start[0].step != 4 && AtStep(4)(start[1]);
    assert FindIndex(start, AtStep(4)) == Some(1);
    assert GetStepSound(start, 4) == Some(start[1]);
    assert UniqueSteps(start) by {
      forall i, j | 0 <= i < j < |start| ensures start[i].step != start[j].step {
      }
    }
    RemoveUniqueStep(start, 1);
    var once := RemoveAt(start, 1);
    assert EmptyAt(once, 4);
  }
}

=== FILE: templates.dfy ===
/** Placeholder substitution in the HTML templates: every `__KEY__` is
    replaced by the key's value with Python's `str.replace`, which rewrites
    the non-overlapping occurrences found scanning left to right. */
module Templates {
  import opened EnvFile

  predicate OccursAt(s: string, pat: string, i: nat)
  {
    i + |pat| <= |s| && s[i..i + |pat|] == pat
  }

  /** `pat in s`. */
  predicate Contains(s: string, pat: string)
  {
    exists i :: 0 <= i <= |s| - |pat| && OccursAt(s, pat, i)
  }

  /** `i` is where the left-to-right scan first finds `pat`. */
  predicate FirstOccurrence(s: string, pat: string, i: nat)
  {
    OccursAt(s, pat, i) && forall j :: 0 <= j < i ==> !OccursAt(s, pat, j)
  }

  /** A text holding the pattern has a first occurrence of it. */
  lemma FirstOccurrenceExists(s: string, pat: string) returns (i: nat)
    requires Contains(s, pat)
    ensures FirstOccurrence(s, pat, i)
  {
    var k :| 0 <= k <= |s| - |pat| && OccursAt(s, pat, k);
    i := 0;
    while !OccursAt(s, pat, i)
      invariant i <= k
      invariant forall j :: 0 <= j < i ==> !OccursAt(s, pat, j)
      decreases k - i
    {
      i := i + 1;
    }
  }

  /** A text without the pattern has none in its tail either. */
  lemma NoOccurrenceInTail(s: string, pat: string)
    requires |pat| > 0 && |s| >= |pat|
    ensures !Contains(s, pat) ==> s[..|pat|] != pat && !Contains(s[1..], pat)
  {
    if !Contains(s, pat) {
      assert !OccursAt(s, pat, 0);
      forall i | 0 <= i <= |s[1..]| - |pat| ensures !OccursAt(s[1..], pat, i) {
        assert !OccursAt(s, pat, i + 1);
        assert s[1..][i..i + |pat|] == s[i + 1..i + 1 + |pat|];
      }
    }
  }

  /** `s.replace(pat, rep)` for a non-empty `pat`: scanning left to right, each
      occurrence is replaced and the scan resumes after it. */
  function ReplaceAll(s: string, pat: string, rep: string): (r: string)
    requires |pat| > 0
  {
    if |s| < |pat| then s
    else if s[..|pat|] == pat then rep + ReplaceAll(s[|pat|..], pat, rep)
    else [s[0]] + ReplaceAll(s[1..], pat, rep)
  }

  /** Text without the pattern is not changed by replacing it. */
  lemma {:induction false} ReplaceWithoutOccurrence(s: string, pat: string, rep: string)
    requires |pat| > 0
    requires !Contains(s, pat)
    ensures ReplaceAll(s, pat, rep) == s
  {
    if |s| >= |pat| {
      NoOccurrenceInTail(s, pat);
      ReplaceWithoutOccurrence(s[1..], pat, rep);
      assert s == [s[0]] + s[1..];
    }
  }

  /** Where the text does not start with the pattern, the scan keeps the first character. */
  lemma ReplaceSkipsFirst(s: string, tail: string, pat: string, rep: string)
    requires |pat| > 0 && |s| >= |pat| && !OccursAt(s, pat, 0) && tail == s[1..]
    ensures ReplaceAll(s, pat, rep) == [s[0]] + ReplaceAll(tail, pat, rep)
  {
    assert s[..|pat|] != pat;
  }

  /** Dropping the first character of a text shifts its slices by one. */
  lemma TailSlices(s: string, tail: string, after: string, i: nat, k: nat, n: nat)
    requires 0 < i && i + n <= |s| && tail == s[1..] && k == i - 1 && after == s[i + n..]
    ensures tail[k + n..] == after
    ensures s[..i] == [s[0]] + tail[..k]
  {
  }

  lemma ConsAssoc(x: string, c: char, t: string, before: string, mid: string, rest: string, front: string)
    requires x == [c] + t && t == before + mid + rest && front == [c] + before
    ensures x == front + mid + rest
  {
  }

  lemma ReplaceAtStart(s: string, pat: string, rep: string)
    requires |pat| > 0 && OccursAt(s, pat, 0)
    ensures ReplaceAll(s, pat, rep) == rep + ReplaceAll(s[|pat|..], pat, rep)
  {
    assert s[..|pat|] == pat;
  }

  /** One step of `ReplaceAtFirstOccurrence`: the result for the tail, with
      the first character put back in front. */
  lemma ReplaceStep(s: string, tail: string, after: string, pat: string, rep: string, i: nat, k: nat)
    requires |pat| > 0 && 0 < i && i + |pat| <= |s| && !OccursAt(s, pat, 0)
    requires tail == s[1..] && k == i - 1 && after == s[i + |pat|..]
    requires ReplaceAll(tail, pat, rep) == tail[..k] + rep + ReplaceAll(tail[k + |pat|..], pat, rep)
    ensures ReplaceAll(s, pat, rep) == s[..i] + rep + ReplaceAll(after, pat, rep)
  {
    ReplaceSkipsFirst(s, tail, pat, rep);
    TailSlices(s, tail, after, i, k, |pat|);
    assert ReplaceAll(tail[k + |pat|..], pat, rep) == ReplaceAll(after, pat, rep);
    ConsAssoc(ReplaceAll(s, pat, rep), s[0], ReplaceAll(tail, pat, rep), tail[..k], rep,
              ReplaceAll(after, pat, rep), s[..i]);
  }

  /** The scan skips text before the first occurrence, replaces that occurrence
      and carries on after it. */
  lemma {:induction false} ReplaceAtFirstOccurrence(s: string, pat: string, rep: string, i: nat)
    requires |pat| > 0
    requires FirstOccurrence(s, pat, i)
    ensures ReplaceAll(s, pat, rep) == s[..i] + rep + ReplaceAll(s[i + |pat|..], pat, rep)
    decreases i
  {
    if i == 0 {
      ReplaceAtStart(s, pat, rep);
      assert s[..i] == [] && s[i + |pat|..] == s[|pat|..];
    } else {
      var tail, k := s[1..], i - 1;
      FirstOccurrenceInTail(s, pat, i);
      ReplaceAtFirstOccurrence(tail, pat, rep, k);
      ReplaceStep(s, tail, s[i + |pat|..], pat, rep, i, k);
    }
  }

  lemma FirstOccurrenceInTail(s: string, pat: string, i: nat)
    requires |pat| > 0 && i > 0
    requires FirstOccurrence(s, pat, i)
    ensures FirstOccurrence(s[1..], pat, i - 1)
    ensures !OccursAt(s, pat, 0) && i + |pat| <= |s|
  {
    var tail := s[1..];
    assert tail[i - 1..i - 1 + |pat|] == s[i..i + |pat|];
    forall j | 0 <= j < i - 1 ensures !OccursAt(tail, pat, j) {
      assert !OccursAt(s, pat, j + 1);
      assert tail[j..j + |pat|] == s[j + 1..j + 1 + |pat|];
    }
  }

  /** `s.split(pat)`: the pieces between the non-overlapping occurrences. */
  function Split(s: string, pat: string): (r: seq<string>)
    requires |pat| > 0
    ensures |r| > 0
  {
    if |s| < |pat| then [s]
    else if s[..|pat|] == pat then [""] + Split(s[|pat|..], pat)
    else
      var rest := Split(s[1..], pat);
      [[s[0]] + rest[0]] + rest[1..]
  }

  /** Text without the pattern splits into one piece, itself. */
  lemma {:induction false} SplitWithoutOccurrence(s: string, pat: string)
    requires |pat| > 0
    requires !Contains(s, pat)
    ensures Split(s, pat) == [s]
  {
    if |s| >= |pat| {
      NoOccurrenceInTail(s, pat);
      SplitWithoutOccurrence(s[1..], pat);
      assert s == [s[0]] + s[1..];
    }
  }

  lemma SplitAtStart(s: string, pat: string)
    requires |pat| > 0 && OccursAt(s, pat, 0)
    ensures Split(s, pat) == [""] + Split(s[|pat|..], pat)
  {
    assert s[..|pat|] == pat;
  }

  /** Where the text does not start with the pattern, the first character
      joins the first piece of the tail's split. */
  lemma SplitSkipsFirst(s: string, tail: string, pat: string)
    requires |pat| > 0 && |s| >= |pat| && !OccursAt(s, pat, 0) && tail == s[1..]
    ensures Split(s, pat) == [[s[0]] + Split(tail, pat)[0]] + Split(tail, pat)[1..]
  {
    assert s[..|pat|] != pat;
  }

  lemma ConsPiece(x: seq<string>, c: char, t: seq<string>, before: string, rest: seq<string>, front: string)
    requires |t| > 0 && x == [[c] + t[0]] + t[1..] && t == [before] + rest && front == [c] + before
    ensures x == [front] + rest
  {
    assert t[1..] == rest;
  }

  /** One step of `SplitAtFirstOccurrence`: the tail's split, with the first
      character put back on the first piece. */
  lemma SplitStep(s: string, tail: string, after: string, pat: string, i: nat, k: nat)
    requires |pat| > 0 && 0 < i && i + |pat| <= |s| && !OccursAt(s, pat, 0)
    requires tail == s[1..] && k == i - 1 && after == s[i + |pat|..]
    requires Split(tail, pat) == [tail[..k]] + Split(tail[k + |pat|..], pat)
    ensures Split(s, pat) == [s[..i]] + Split(after, pat)
  {
    SplitSkipsFirst(s, tail, pat);
    TailSlices(s, tail, after, i, k, |pat|);
    assert Split(tail[k + |pat|..], pat) == Split(after, pat);
    ConsPiece(Split(s, pat), s[0], Split(tail, pat), tail[..k], Split(after, pat), s[..i]);
  }

  /** The first piece is the text before the first occurrence; the other
      pieces are those of the text after it. */
  lemma {:induction false} SplitAtFirstOccurrence(s: string, pat: string, i: nat)
    requires |pat| > 0
    requires FirstOccurrence(s, pat, i)
    ensures Split(s, pat) == [s[..i]] + Split(s[i + |pat|..], pat)
    decreases i
  {
    if i == 0 {
      SplitAtStart(s, pat);
      assert s[..i] == [] && s[i + |pat|..] == s[|pat|..];
    } else {
      var tail, k := s[1..], i - 1;
      FirstOccurrenceInTail(s, pat, i);
      SplitAtFirstOccurrence(tail, pat, k);
      SplitStep(s, tail, s[i + |pat|..], pat, i, k);
    }
  }

  /** No piece of a split holds the pattern. */
  lemma {:induction false} SplitPiecesFree(s: string, pat: string)
    requires |pat| > 0
    ensures forall k :: 0 <= k < |Split(s, pat)| ==> !Contains(Split(s, pat)[k], pat)
    decreases |s|
  {
    if Contains(s, pat) {
      var i := FirstOccurrenceExists(s, pat);
      SplitAtFirstOccurrence(s, pat, i);
      var rest := s[i + |pat|..];
      SplitPiecesFree(rest, pat);
      var front := s[..i];
      assert !Contains(front, pat) by {
        forall j | 0 <= j <= |front| - |pat| ensures !OccursAt(front, pat, j) {
          assert front[j..j + |pat|] == s[j..j + |pat|];
          assert !OccursAt(s, pat, j);
        }
      }
      assert forall k :: 1 <= k < |Split(s, pat)| ==> Split(s, pat)[k] == Split(rest, pat)[k - 1];
    } else {
      SplitWithoutOccurrence(s, pat);
    }
  }

  /** `sep.join(parts)`. */
  function Join(parts: seq<string>, sep: string): (r: string)
    requires |parts| > 0
  {
    if |parts| == 1 then parts[0] else parts[0] + sep + Join(parts[1..], sep)
  }

  /** Replacing is splitting at the occurrences and joining with the replacement. */
  lemma {:induction false} ReplaceIsSplitJoin(s: string, pat: string, rep: string)
    requires |pat| > 0
    ensures ReplaceAll(s, pat, rep) == Join(Split(s, pat), rep)
  {
    if |s| < |pat| {
    } else if s[..|pat|] == pat {
      ReplaceIsSplitJoin(s[|pat|..], pat, rep);
    } else {
      ReplaceIsSplitJoin(s[1..], pat, rep);
      var rest := Split(s[1..], pat);
      if |rest| > 1 {
        assert ([[s[0]] + rest[0]] + rest[1..])[1..] == rest[1..];
      }
    }
  }

  /** Putting the placeholder back where it was cut out gives the original text. */
  lemma {:induction false} SplitJoinRoundTrip(s: string, pat: string)
    requires |pat| > 0
    ensures Join(Split(s, pat), pat) == s
  {
    if |s| < |pat| {
    } else if s[..|pat|] == pat {
      var tail := s[|pat|..];
      SplitJoinRoundTrip(tail, pat);
      var parts := [""] + Split(tail, pat);
      assert parts[1..] == Split(tail, pat);
      assert Join(parts, pat) == "" + pat + Join(Split(tail, pat), pat);
      assert s == pat + tail;
    } else {
      SplitJoinRoundTrip(s[1..], pat);
      var rest := Split(s[1..], pat);
      var parts := [[s[0]] + rest[0]] + rest[1..];
      assert Split(s, pat) == parts;
      if |rest| > 1 {
        assert parts[1..] == rest[1..];
        assert Join(parts, pat) == ([s[0]] + rest[0]) + pat + Join(rest[1..], pat);
        assert Join(rest, pat) == rest[0] + pat + Join(rest[1..], pat);
        assert Join(parts, pat) == [s[0]] + Join(rest, pat);
      } else {
        assert Join(parts, pat) == [s[0]] + Join(rest, pat);
      }
      assert s == [s[0]] + s[1..];
    }
  }

  /** Replacing a placeholder by itself changes nothing. */
  lemma ReplaceBySelf(s: string, pat: string)
    requires |pat| > 0
    ensures ReplaceAll(s, pat, pat) == s
  {
    ReplaceIsSplitJoin(s, pat, pat);
    SplitJoinRoundTrip(s, pat);
  }

  /** `__KEY__`. */
  function Placeholder(key: string): (ph: string)
    ensures |ph| == |key| + 4
  {
    "__" + key + "__"
  }

  /** `r` is `s` with the first occurrence of `pat` replaced by `rep` and the
      text after it replaced throughout. */
  predicate CutAtFirst(s: string, pat: string, rep: string, r: string)
    requires |pat| > 0
  {
    exists i: nat :: (i <= |s| && FirstOccurrence(s, pat, i) &&
      r == s[..i] + rep + ReplaceAll(s[i + |pat|..], pat, rep))
  }

  /** Text holding the pattern has a first occurrence, and the replacement
      keeps the text before it, puts the replacement in its place and
      carries on after it. */
  lemma ReplaceCutsAtFirst(s: string, pat: string, rep: string)
    requires |pat| > 0
    requires Contains(s, pat)
    ensures CutAtFirst(s, pat, rep, ReplaceAll(s, pat, rep))
  {
    var i := FirstOccurrenceExists(s, pat);
    ReplaceAtFirstOccurrence(s, pat, rep, i);
  }

  /** One pass of the replacement loop for one dictionary entry. */
  function ReplaceEntry(content: string, b: Binding): (r: string)
    ensures !Contains(content, Placeholder(b.key)) ==> r == content
    ensures Contains(content, Placeholder(b.key)) ==> CutAtFirst(content, Placeholder(b.key), b.value, r)
    ensures Contains(content, Placeholder(b.key)) ==> r == Join(Split(content, Placeholder(b.key)), b.value)
  {
    var ph := Placeholder(b.key);
    if Contains(content, ph) then
      ReplaceCutsAtFirst(content, ph, b.value);
      ReplaceIsSplitJoin(content, ph, b.value);
      ReplaceAll(content, ph, b.value)
    else content
  }

  /** The whole loop: the entries in dictionary order, each rewriting the
      text the previous ones produced. */
  function ApplyEnv(content: string, env: Env): (r: string)
    ensures (forall i :: 0 <= i < |env| ==> !Contains(content, Placeholder(env[i].key))) ==> r == content
    decreases |env|
  {
    if |env| == 0 then content
    else
      var next := ReplaceEntry(content, env[0]);
      assert (forall i :: 0 <= i < |env| ==> !Contains(content, Placeholder(env[i].key))) ==>
        next == content && forall i :: 0 <= i < |env[1..]| ==> !Contains(content, Placeholder(env[1..][i].key));
      ApplyEnv(next, env[1..])
  }

  /** Adding one more entry to the dictionary adds one more pass at the end. */
  lemma {:induction false} ApplyEnvSnoc(content: string, env: Env, b: Binding)
    ensures ApplyEnv(content, env + [b]) == ReplaceEntry(ApplyEnv(content, env), b)
    decreases |env|
  {
    if |env| == 0 {
      assert ApplyEnv(content, [b]) == ApplyEnv(ReplaceEntry(content, b), []);
    } else {
      var next := ReplaceEntry(content, env[0]);
      assert (env + [b])[1..] == env[1..] + [b];
      ApplyEnvSnoc(next, env[1..], b);
    }
  }
}

=== FILE: transport.dfy ===
/** The looping playheads. Every phone view and the host screen keep their
    own position and advance it by one on each timer tick, wrapping at the end
    of the bar; the host screen additionally gates its ticks on Play/Pause.
    The timer itself (period, scheduling) is outside the model: one call of a
    tick function is one timer callback. */
module Transport {

  /** Steps in one bar, shared by every step grid. */
  const StepsPerBar: nat := 16
  /** Chord slots in one bar (the chords view advances over slots, not steps). */
  const ChordSlotsPerBar: nat := 4
  /** Steps per beat of the beat indicator. */
  const StepsPerBeat: nat := 4

  /** One timer tick of a playhead over `length` positions. */
  function Advance(prev: nat, length: nat): (r: nat)
    requires length > 0
    ensures r < length
    ensures prev + 1 < length ==> r == prev + 1
    ensures prev + 1 == length ==> r == 0
  {
    (prev + 1) % length
  }

  /** The playhead after `n` ticks starting from `pos`. */
  function AdvanceTimes(pos: nat, length: nat, n: nat): (r: nat)
    requires length > 0
  {
    if n == 0 then pos else Advance(AdvanceTimes(pos, length, n - 1), length)
  }

  lemma MulAtLeastFactor(d: int, length: int)
    requires d >= 1 && length > 0
    ensures d * length >= length
  {
    assert d * length == (d - 1) * length + length;
  }

  /** Euclidean remainder is determined by any decomposition `a == q * length + r`. */
  lemma ModUnique(a: int, length: int, q: int, r: int)
    requires length > 0 && 0 <= r < length && a == q * length + r
    ensures a % length == r
  {
    var q', r' := a / length, a % length;
    assert (q - q') * length == r' - r;
    if q > q' {
      MulAtLeastFactor(q - q', length);
    } else if q < q' {
      MulAtLeastFactor(q' - q, length);
    }
  }

  lemma ModSucc(a: nat, length: nat)
    requires length > 0
    ensures (a % length + 1) % length == (a + 1) % length
  {
    var q, m := a / length, a % length;
    if m + 1 < length {
      ModUnique(a + 1, length, q, m + 1);
      ModUnique(m + 1, length, 0, m + 1);
    } else {
      assert a + 1 == (q + 1) * length + 0;
      ModUnique(a + 1, length, q + 1, 0);
      ModUnique(m + 1, length, 1, 0);
    }
  }

  /** After `n` ticks an in-range playhead sits `n` positions further, modulo the bar. */
  lemma {:induction false} AdvanceTimesIsOffset(pos: nat, length: nat, n: nat)
    requires pos < length
    ensures AdvanceTimes(pos, length, n) == (pos + n) % length
  {
    if n > 0 {
      AdvanceTimesIsOffset(pos, length, n - 1);
      ModSucc(pos + n - 1, length);
    }
  }

  /** A full bar of ticks brings a playhead back to where it started. */
  lemma FullBarReturns(pos: nat, length: nat)
    requires pos < length
    ensures AdvanceTimes(pos, length, length) == pos
  {
    AdvanceTimesIsOffset(pos, length, length);
    ModUnique(pos + length, length, 1, pos);
  }

  /** `Math.floor(step / 4)`: which of the four beat dots is lit. */
  function BeatIndex(step: nat): (beat: nat)
    ensures beat * StepsPerBeat <= step < beat * StepsPerBeat + StepsPerBeat
    ensures step < StepsPerBar ==> beat < StepsPerBar / StepsPerBeat
  {
    step / StepsPerBeat
  }

  /** The host screen's transport: a playhead plus the Play/Pause state. */
  datatype HostClock = HostClock(currentStep: nat, isPlaying: bool)

  /** One timer callback: the interval only exists while playing. */
  function Tick(c: HostClock): (r: HostClock)
    ensures r.isPlaying == c.isPlaying
    ensures r.currentStep < StepsPerBar || r == c
    ensures c.isPlaying ==> r.currentStep == Advance(c.currentStep, StepsPerBar)
    ensures !c.isPlaying ==> r == c
  {
    if c.isPlaying then c.(currentStep := Advance(c.currentStep, StepsPerBar)) else c
  }

  /** The Play/Pause button. */
  function TogglePlay(c: HostClock): (r: HostClock)
    ensures r.currentStep == c.currentStep
    ensures r.isPlaying != c.isPlaying
  {
    c.(isPlaying := !c.isPlaying)
  }

  function TickTimes(c: HostClock, n: nat): (r: HostClock)
  {
    if n == 0 then c else Tick(TickTimes(c, n - 1))
  }

  /** Play/Pause never moves the playhead, and pressing it twice restores the transport. */
  lemma TogglePlayTwice(c: HostClock)
    ensures TogglePlay(TogglePlay(c)) == c
    ensures TogglePlay(c).currentStep == c.currentStep
  {
  }

  /** While paused, any number of ticks leaves the transport as it was. */
  lemma {:induction false} PausedTicksKeepStep(c: HostClock, n: nat)
    requires !c.isPlaying
    ensures TickTimes(c, n) == c
  {
    if n > 0 {
      PausedTicksKeepStep(c, n - 1);
    }
  }

  /** While playing, the host playhead is the phones' playhead: `n` ticks move it `n` steps. */
  lemma {:induction false} PlayingTicksAdvance(c: HostClock, n: nat)
    requires c.isPlaying
    requires c.currentStep < StepsPerBar
    ensures TickTimes(c, n).isPlaying
    ensures TickTimes(c, n).currentStep == AdvanceTimes(c.currentStep, StepsPerBar, n)
    ensures TickTimes(c, n).currentStep == (c.currentStep + n) % StepsPerBar
  {
    if n > 0 {
      PlayingTicksAdvance(c, n - 1);
    }
    AdvanceTimesIsOffset(c.currentStep, StepsPerBar, n);
  }

  /** The host playhead never leaves the bar, so its beat dot is always one of four. */
  lemma {:induction false} HostStepInBar(c: HostClock, n: nat)
    requires c.currentStep < StepsPerBar
    ensures TickTimes(c, n).currentStep < StepsPerBar
    ensures BeatIndex(TickTimes(c, n).currentStep) < StepsPerBar / StepsPerBeat
  {
    if n > 0 {
      HostStepInBar(c, n - 1);
    }
  }
}

=== FILE: wrappers.dfy ===
/** Optional values and error results shared by every module of the model.
    `None` stands for JavaScript's `undefined` / `null` and for a missing
    dictionary key; `Err` stands for a build that stops with `sys.exit(1)`. */
module Wrappers {

  datatype Option<+T> = None | Some(value: T)

  datatype Result<+T, +E> = Ok(value: T) | Err(error: E)
}
